=== FILE: README.md ===
# Members and memberships: a Dafny model

This project models the core of a small REST service. The service keeps **members** (name, email) and their **memberships** (a start date, an end date and a member). It covers these parts:

- the date helper that turns a `YYYY-MM-DD` string into a local-midnight date and refuses past dates (`src/helpers/newDateConverter.js`);
- the sort-field allow-lists (`src/helpers/allowedSortFields.js`);
- the two services over the store (`src/services/memberService.js`, `src/services/membershipService.js`);
- the ten HTTP handlers, each reduced to the first response it writes (`src/controllers/memberController.js`, `src/controllers/membershipController.js`).

Modules, one per concept:

- `Calendar`: the proleptic Gregorian calendar as day numbers, counted from 0000-01-01. It follows the `MakeDay` arithmetic of the `Date` constructor, so an out-of-range month or day rolls over instead of being refused.
- `DateValidator`: the date helper, with "today" (the day number of the current local midnight) as a parameter.
- `SortFields`: the allow-lists.
- `Ordering`: sort keys and a sort, standing in for the database's `orderBy`.
- `Store`: the database as two maps from id to record, plus autoincrement counters. It also holds the errors a service can throw, their messages, the "not found" substring test, and `skip`/`take` paging.
- `MemberService` and `MembershipService`: each service function maps the store before a call to the value returned and the store after, or to the error thrown.
- `Http`: what the handlers share. That is the response record, the page, page-size and order query parsing, and the 404/500 classification of a caught error.
- `MemberController` and `MembershipController`: the handlers.

Request fields arrive already parsed:

- A body string is `None` when it is undefined or null.
- A `parseInt` result is `None` for `NaN`.
- A `NaN` id is taken to find no record (`Store.Lookup`).

The membership service and handlers take a `Build` argument. `AsWritten` is the code as it stands. `Repaired` corrects the two defects listed under Findings.

## Model

| member | source | states |
|---|---|---|
| DateValidator.NewDateConverterAndValidate | src/helpers/newDateConverter.js:17-27 | a string not of the exact `DDDD-DD-DD` shape gives null; a result is never before today and is the date the constructor builds; a well-formed string whose date is today or later is accepted |
| DateValidator.FormatThenSplit | src/helpers/newDateConverter.js:1-3 | writing year, month and day as `YYYY-MM-DD` gives a string of the accepted shape from which `split("-").map(Number)` reads the same three numbers back |
| DateValidator.SplitThenFormat | src/helpers/newDateConverter.js:1-3 | every string of the accepted shape is the written form of the numbers read out of it |
| DateValidator.ValidateFormatted | src/helpers/newDateConverter.js:1-27 | for a written date the validator answers `new Date(year, month - 1, day)`, or null exactly when that date is before today's midnight |
| DateValidator.AcceptsToday | src/helpers/newDateConverter.js:10-15 | a date equal to today's midnight is accepted, because the comparison is strict |
| DateValidator.RejectsYesterday | src/helpers/newDateConverter.js:10-15 | the day before today is refused |
| DateValidator.SameDateSameAnswer | src/helpers/newDateConverter.js:1-8 | two strings the constructor maps to the same day get the same answer |
| DateValidator.LocalDateCarries | src/helpers/newDateConverter.js:6 | a month index twelve higher is the same month of the next year |
| DateValidator.LocalDateOverflows | src/helpers/newDateConverter.js:6 | day `k` past the end of a month is day `k` of the next month, with December rolling into January of the next year |
| DateValidator.DayPastMonthEndRollsOver | src/helpers/newDateConverter.js:1-27 | the validator does not refuse a day past the month's end (`2025-02-30`) but answers as for the rolled-over date (`2025-03-02`) |
| DateValidator.MonthPastDecemberRollsOver | src/helpers/newDateConverter.js:1-27 | the validator does not refuse month 13 or month 00: `Y-(m+12)-d` answers as `(Y+1)-m-d` |
| DateValidator.LocalDateMonotone | src/helpers/newDateConverter.js:6 | on real calendar dates, later in calendar order never means an earlier day |
| DateValidator.LaterDateAlsoAccepted | src/helpers/newDateConverter.js:17-27 | if a real calendar date is accepted, every later one is too |
| Calendar.CalendarOrder | src/helpers/newDateConverter.js:6 | on real calendar dates the constructor is strictly increasing in calendar order and one-to-one |
| Calendar.CalendarMonotone | src/helpers/newDateConverter.js:6 | calendar order gives day-number order, as a one-way statement |
| Calendar.CalendarDateBounds | src/helpers/newDateConverter.js:6 | a real calendar date falls inside its own month and its own year |
| Calendar.YearsAreOrdered | src/helpers/newDateConverter.js:6 | every day of a year comes before the first day of any later year |
| Calendar.MonthIndexCarries | src/helpers/newDateConverter.js:6 | month index `m + 12` of year `y` is month index `m` of year `y + 1` |
| Calendar.NextDate | src/helpers/newDateConverter.js:6 | one more in the day argument is one day later |
| Calendar.DateOverflowsIntoNextMonth | src/helpers/newDateConverter.js:6 | a day argument past the month's length continues into the next month |
| SortFields.CheckMemberSortFields | src/helpers/allowedSortFields.js:3-9 | the result is always name, email or id; an allow-listed input is returned unchanged; anything else, a missing value included, gives name |
| SortFields.CheckMembershipSortFields | src/helpers/allowedSortFields.js:11-17 | the result is always startDate, endDate or id; an allow-listed input passes; anything else gives endDate |
| SortFields.MemberFixedPoints | src/helpers/allowedSortFields.js:3-9 | a value is returned unchanged exactly when it is on the member list |
| SortFields.MembershipFixedPoints | src/helpers/allowedSortFields.js:11-17 | a value is returned unchanged exactly when it is on the membership list |
| SortFields.MemberCheckIdempotent | src/helpers/allowedSortFields.js:3-9 | checking a checked member sort field changes nothing |
| SortFields.MembershipCheckIdempotent | src/helpers/allowedSortFields.js:11-17 | checking a checked membership sort field changes nothing |
| Ordering.StrLeTotal | src/services/memberService.js:43-45 | any two strings are comparable in the text order used for sorting |
| Ordering.StrLeTransitive | src/services/memberService.js:43-45 | the text order is transitive |
| Ordering.SortBy | src/services/memberService.js:43-45 | the result is ordered by the key in the requested direction and is a permutation of the input |
| Store.Lookup | src/services/memberService.js:23-26 | `findUnique` by id finds a record exactly when the parsed id is a key, and it is the stored record |
| Store.MemberNotFoundRecognised | src/services/memberService.js:64-66 | the member service's "Member with ID … not found." message passes the handlers' `includes("not found")` test |
| Store.MembershipNotFoundRecognised | src/services/membershipService.js:33-35 | the membership service's "not found" message passes the same test |
| Store.UndeclaredMemberIdNotRecognised | src/services/membershipService.js:39 | the error from reading the undeclared `memberId` says "memberId is not defined", which fails the test |
| Store.Ordered | src/services/memberService.js:40-50 | `findMany` with `orderBy` and `include`: as many rows as records, every record joined with its relation among them (so each exactly once when the joined views differ, as they do on a valid store, where ids differ), sorted by the key |
| Store.SkipTake | src/services/memberService.js:41-42 | a negative `skip` is refused; otherwise the rows from position `skip` on, at most `take` of them when `take` is not negative; a negative `take` gives the last `-take` rows (fewer when the table is short) before the final `skip` rows |
| MemberService.AddMember | src/services/memberService.js:5-19 | creation always succeeds with the given name and email under a fresh id; only that record is added, and the store's invariant is kept |
| MemberService.MembershipsOf | src/services/memberService.js:23-26 | the joined memberships are exactly the stored memberships that name the member |
| MemberService.GetMemberById | src/services/memberService.js:21-35 | a missing id returns nothing rather than throwing; a present one returns the stored member with exactly its memberships |
| MemberService.MembersInOrder | src/services/memberService.js:40-50 | every member exactly once, with its memberships, sorted by the requested field and direction |
| MemberService.GetMembersPagination | src/services/memberService.js:38-56 | the rows from `(page - 1) * pageSize` of the ordered members, at most `pageSize` of them; a negative offset throws |
| MemberService.UpdateMember | src/services/memberService.js:58-114 | a missing id throws "not found" and changes nothing; otherwise only the target's name and email change, each kept when the new value is null or undefined and replaced by any other value, `""` included; the invariant is kept |
| MemberService.DeleteMember | src/services/memberService.js:116-135 | a missing id throws "not found" and changes nothing; otherwise exactly that key is removed and the record as it was is returned |
| MemberService.AddThenGet | src/services/memberService.js:5-35 | a member just created is found by its id, with no memberships |
| MemberService.UpdateThenGet | src/services/memberService.js:58-114 | reading a member after updating it returns what the update returned |
| MemberService.UpdateIdempotent | src/services/memberService.js:68-77 | repeating an update changes nothing further |
| MemberService.DeleteThenGet | src/services/memberService.js:116-135 | after a delete the member is not found, and deleting it again throws "not found" |
| MembershipService.AddMembership | src/services/membershipService.js:5-25 | the new record has the given dates and member id and is joined with that member; connecting to a missing member throws and changes nothing; the invariant is kept |
| MembershipService.GetMembershipById | src/services/membershipService.js:27-42 | a present id returns the stored membership with its member; for a missing id the service as written throws the ReferenceError and the repaired one throws "not found" |
| MembershipService.MembershipsInOrder | src/services/membershipService.js:46-55 | every membership exactly once, with its member, sorted by the requested field and direction |
| MembershipService.GetMembershipPagination | src/services/membershipService.js:44-62 | the same skip/take window as the member listing, over the ordered memberships |
| MembershipService.UpdateMembership | src/services/membershipService.js:64-90 | a missing id fails, with the ReferenceError as written, and changes nothing; otherwise only the target's dates change, each kept when the new one is null; the invariant is kept |
| MembershipService.DeleteMembership | src/services/membershipService.js:92-111 | a missing id fails, with the ReferenceError as written, and changes nothing; otherwise exactly that key is removed and the record as it was is returned |
| MembershipService.AddThenGet | src/services/membershipService.js:5-42 | a membership just created is found by its id, joined with its member |
| MembershipService.UpdateThenGet | src/services/membershipService.js:64-90 | reading a membership after updating it returns what the update returned |
| MembershipService.DeleteThenGet | src/services/membershipService.js:92-111 | after a delete, reading or deleting the same id fails as for a missing id |
| MembershipService.MissingMembershipClassified | src/services/membershipService.js:38-40 | as written, the error a failed lookup propagates fails the handlers' "not found" test; repaired, it passes |
| Http.PageParam | src/controllers/memberController.js:60 | the page is always at least 1; a positive value is kept; missing, non-numeric, zero or negative values give 1 |
| Http.PageSizeParam | src/controllers/memberController.js:61 | the page size is never above 50; missing, non-numeric or zero gives 10; larger values give 50; negative values pass through unclamped |
| Http.OrderParam | src/controllers/memberController.js:63 | the order is descending exactly when the value is `"desc"` |
| Http.Param | src/controllers/membershipController.js:91 | a path parameter is present exactly when the route binds it |
| Http.Classified | src/controllers/memberController.js:109-121 | the first response to a caught error is 404 exactly when its message contains "not found" and 500 otherwise, carrying the message |
| Http.Listed | src/controllers/memberController.js:65-85 | a thrown error answers 500; an empty page answers 200 with `success` false and "members empty"; a non-empty one answers 200 with the page details and rows |
| Http.OffsetNonNegative | src/controllers/memberController.js:60-61 | with a missing or non-negative size, the page offset handed to the service is never negative |
| Http.NegativeSizeOffset | src/controllers/memberController.js:60-61 | a negative size reaches the service unchanged, and makes a negative offset exactly on pages after the first |
| MemberController.AddMember | src/controllers/memberController.js:4-31 | a missing or empty name or email answers 400 without calling the service; otherwise 201 with the created member; only that member is added to the store, the memberships and their counter are unchanged, and a valid store stays valid |
| MemberController.GetMemberById | src/controllers/memberController.js:33-56 | 200 with the member exactly when it exists, otherwise 404 "No member matched"; the store is unchanged |
| MemberController.GetMembersPagination | src/controllers/memberController.js:58-86 | the echoed page is at least 1 and the size at most 50; a returned page carries exactly the rows the service returned, which are its window in the allow-listed order; 500 exactly when the offset is negative; otherwise a page is returned exactly when the service's window is non-empty, which for a positive size means the offset is below the member count, and an empty window answers 200 with `success` false and "members empty" |
| MemberController.UpdateMember | src/controllers/memberController.js:88-122 | 400 without a service call exactly when both new fields are falsy; a present member with a truthy field answers 200 with the updated member; a missing member gives the classified "not found" response |
| MemberController.DeleteMember | src/controllers/memberController.js:124-147 | 200 exactly when the member exists, removing it and returning it with the id counters unchanged and a valid store kept valid; otherwise the classified error with the store unchanged |
| MemberController.MissingMemberAnswers404 | src/controllers/memberController.js:109-121 | updating or deleting a member that is not there answers 404 with the service's message |
| MemberController.AddedMemberIsFound | src/controllers/memberController.js:4-56 | a member created through the handler is then fetched with 200 |
| MemberController.UpdatedMemberIsFound | src/controllers/memberController.js:88-122 | a read after a successful update returns the member the update returned |
| MemberController.DeletedMemberIsGone | src/controllers/memberController.js:124-147 | after a successful delete, reading or deleting the same id answers 404 |
| MemberController.ListingWithSizeSucceeds | src/controllers/memberController.js:58-86 | the member listing never answers 500 when the size asked for is missing or not negative |
| MembershipController.AddMembership | src/controllers/membershipController.js:8-59 | the "fields missing or invalid." check runs before any date parsing; then an invalid date answers 400 without a service call; a missing member answers 500 under `error`; success answers 201 with `success` true and dates no earlier than today, and the store then holds the new membership under a fresh id, with the other memberships, the members and the member counter unchanged, and a valid store kept valid |
| MembershipController.GetMembershipById | src/controllers/membershipController.js:61-84 | 200 exactly when the membership exists, with `success` true, that membership and its member joined; otherwise the classified form of what the service throws |
| MembershipController.GetMembershipPagination | src/controllers/membershipController.js:86-114 | the same clamps as the member listing; the sort field is from the membership list; a returned page carries exactly the rows the service returned, which are its window in the order the handler derives; a page is returned exactly when that window is non-empty, and an empty one answers 200 with `success` false and "members empty" |
| MembershipController.NewDate | src/controllers/membershipController.js:133-158 | an omitted or empty date keeps the stored one; a supplied one is replaced by its validated date, or refused |
| MembershipController.UpdateMembership | src/controllers/membershipController.js:116-184 | an unusable id answers 400 before any fetch; a missing membership gives the classified service error; startDate is refused before endDate is examined; success answers 201 with `success` true and the updated membership joined with its member, and changes only the dates of that membership, with the id counters unchanged and a valid store kept valid |
| MembershipController.DeleteMembership | src/controllers/membershipController.js:186-210 | 200 exactly when the membership exists, removing it and answering `success` true with the removed membership joined with its member, with the id counters unchanged and a valid store kept valid; otherwise the classified error with the store unchanged |
| MembershipController.MissingMembershipAnswers500 | src/controllers/membershipController.js:72-83 | as written, reading, updating or deleting a missing membership answers 500 "memberId is not defined" |
| MembershipController.MissingMembershipAnswers404 | src/controllers/membershipController.js:72-83 | repaired, the same requests answer 404 with "Membership with ID … not found." |
| MembershipController.ListingIgnoresOrder | src/controllers/membershipController.js:91 | as written, the listing route binds no `order`, so the answer is the ascending one whatever the query asks |
| MembershipController.ListingHonoursOrder | src/controllers/membershipController.js:86-114 | repaired, `order=desc` lists the memberships in descending order |
| MembershipController.UpdatedDatesAreCurrent | src/controllers/membershipController.js:131-160 | after an accepted update, every date that was supplied is no earlier than today and every omitted one is the stored one |

## Left out

- Express routing, the server bootstrap and the `PORT` setting. The one routing fact used is that the listing route `/` binds no path parameters (`Http.ListRouteParams`).
- Prisma, SQL and the database. The store is a pair of maps with autoincrement counters.
- The ORM's error wording. Its refusals (a `connect` to a missing member, a negative `skip`) carry stand-in messages. The only thing the handlers do with them is answer 500, and none of the stand-ins contains "not found".
- The referential action when a member with memberships is deleted. It depends on a schema that is not part of this model, so `MemberService.DeleteMember` removes only the member record.
- MemberService.AddMember: no constraint of the schema (such as a unique email) is modelled, so creation never fails.
- Real `Date` instants, timezones, daylight saving and the conversion to UTC on storage. Dates are day numbers, and "today" is a parameter standing in for the clock.
- The full string semantics of `parseInt`, such as `"12abc"` giving 12. Path and query numbers arrive as parsed `Option<int>` values.
- Body values that are not strings.
- The second `res.status(500)` write after a 404 in the classifying catch blocks. Express refuses it because headers are already sent, so only the first response is modelled.
- Logging (`console.error`), `async`/`await`, and the race between the existence check and the write, which is a concurrency concern.
- The unreachable `if (!newMember)` and `if (!newMembership)` branches of the handlers. The services never return a falsy record.
- Ordering.SortBy: the order of rows with equal sort keys, which the database leaves unspecified. The contract promises order and permutation only; the insertion sort happens to put later rows first among equals, and nothing relies on that.
- Store.Lookup: a `NaN` id is taken as a miss, so the handlers answer as for a missing record. The ORM may instead refuse a `NaN` id with a validation error, which the handlers would answer with 500.
- MemberService.MemberView: the member's memberships are a set, so the order of the JSON `memberships` array is not modelled.
- Ordering.StrLeTotal: strings compare by code point, not by the database collation.
- Numbers beyond the range where JavaScript represents integers exactly. Integers are unbounded here.

## Findings

| source | as written | input that shows it | evidently intended | confidence | as-written member | corrected member |
|---|---|---|---|---|---|---|
| src/services/membershipService.js:39 | the catch blocks of getMembershipById, updateMembership and deleteMembership (lines 39, 87, 108) log `${memberId}`, a name not in scope in those functions (the file declares it only as addMembership's parameter, line 5), so a ReferenceError "memberId is not defined" replaces the caught error | GET, PUT or DELETE `/api/membership/7` when no membership 7 exists | the log names `membershipId`, the "not found" error reaches the handler, and the handler answers 404 | high; not executed | MembershipController.MissingMembershipAnswers500 | MembershipController.MissingMembershipAnswers404 |
| src/controllers/membershipController.js:91 | the listing reads `req.params.order`, which the `/` route (src/routes/membershipRoutes.js:9) never binds, so the order is always ascending | GET `/api/membership?order=desc` | read `req.query.order`, as the member listing does (src/controllers/memberController.js:63) | high; not executed | MembershipController.ListingIgnoresOrder | MembershipController.ListingHonoursOrder |

=== FILE: calendar.dfy ===
/**
 * Proleptic Gregorian day arithmetic, following the `MakeDay` step of the
 * ECMAScript `Date` constructor. A date is a day number: the count of days
 * since 0000-01-01. Every local midnight is one such number, so comparing
 * two local-midnight instants is comparing their day numbers.
 */
module Calendar {

  predicate IsLeapYear(y: int) {
    y % 4 == 0 && (y % 100 != 0 || y % 400 == 0)
  }

  function YearLength(y: int): int {
    if IsLeapYear(y) then 366 else 365
  }

  /** Length of the month with zero-based index `mn` (0 is January). */
  function DaysInMonth(y: int, mn: int): (n: int)
    requires 0 <= mn < 12
    ensures 28 <= n <= 31
  {
    if mn == 1 then (if IsLeapYear(y) then 29 else 28)
    else if mn == 3 || mn == 5 || mn == 8 || mn == 10 then 30
    else 31
  }

  /** Days from 0000-01-01 to the first day of year `y` (`/` is floor division here). */
  function DaysBeforeYear(y: int): int {
    365 * y + (y + 3) / 4 - (y + 99) / 100 + (y + 399) / 400
  }

  /** Days from the first of January of year `y` to the first day of month index `mn`. */
  function DaysBeforeMonth(y: int, mn: int): int
    requires 0 <= mn < 12
  {
    var common := [0, 31, 59, 90, 120, 151, 181, 212, 243, 273, 304, 334];
    common[mn] + (if mn >= 2 && IsLeapYear(y) then 1 else 0)
  }

  /**
   * ECMAScript MakeDay(year, month, date): the month index may be any integer
   * and carries whole years into `year`; the date may be any integer and
   * counts on from the first of the month. Nothing is rejected.
   */
  function MakeDay(year: int, monthIndex: int, date: int): int {
    var y := year + monthIndex / 12;
    var mn := monthIndex % 12;
    DaysBeforeYear(y) + DaysBeforeMonth(y, mn) + date - 1
  }

  /** The calendar dates that name a real day: month 1..12, day within that month. */
  predicate IsCalendarDate(y: int, m: int, d: int) {
    1 <= m <= 12 && 1 <= d <= DaysInMonth(y, m - 1)
  }

  /** Each floor-division term of DaysBeforeYear grows by one exactly at the multiples of its divisor. */
  lemma Step4(y: int)
    ensures (y + 4) / 4 - (y + 3) / 4 == (if y % 4 == 0 then 1 else 0)
  {
    var q, r := y / 4, y % 4;
    assert y == 4 * q + r;
    assert (y + 4) / 4 == q + 1;
    if r == 0 {
      assert (y + 3) / 4 == q;
    } else {
      assert (y + 3) / 4 == q + 1;
    }
  }

  lemma Step100(y: int)
    ensures (y + 100) / 100 - (y + 99) / 100 == (if y % 100 == 0 then 1 else 0)
  {
    var q, r := y / 100, y % 100;
    assert y == 100 * q + r;
    assert (y + 100) / 100 == q + 1;
    if r == 0 {
      assert (y + 99) / 100 == q;
    } else {
      assert (y + 99) / 100 == q + 1;
    }
  }

  lemma Step400(y: int)
    ensures (y + 400) / 400 - (y + 399) / 400 == (if y % 400 == 0 then 1 else 0)
  {
    var q, r := y / 400, y % 400;
    assert y == 400 * q + r;
    assert (y + 400) / 400 == q + 1;
    if r == 0 {
      assert (y + 399) / 400 == q;
    } else {
      assert (y + 399) / 400 == q + 1;
    }
  }

  /** One year further on is exactly one year length later. */
  lemma YearStep(y: int)
    ensures DaysBeforeYear(y + 1) == DaysBeforeYear(y) + YearLength(y)
  {
    Step4(y);
    Step100(y);
    Step400(y);
  }

  /** The first of month `mn + 1` follows the last day of month `mn`; December ends the year. */
  lemma MonthStep(y: int, mn: int)
    requires 0 <= mn < 12
    ensures mn < 11 ==> DaysBeforeMonth(y, mn + 1) == DaysBeforeMonth(y, mn) + DaysInMonth(y, mn)
    ensures mn == 11 ==> DaysBeforeMonth(y, mn) + DaysInMonth(y, mn) == YearLength(y)
  {
  }

  lemma DaysBeforeMonthBounds(y: int, mn: int)
    requires 0 <= mn < 12
    ensures 0 <= DaysBeforeMonth(y, mn)
    ensures DaysBeforeMonth(y, mn) + DaysInMonth(y, mn) <= YearLength(y)
  {
  }

  lemma {:induction false} YearsAreOrdered(a: int, b: int)
    requires a < b
    ensures DaysBeforeYear(a) + YearLength(a) <= DaysBeforeYear(b)
    decreases b - a
  {
    YearStep(a);
    if a + 1 < b {
      YearsAreOrdered(a + 1, b);
    }
  }

  /** A real calendar date lies inside its own year and its own month. */
  lemma CalendarDateBounds(y: int, m: int, d: int)
    requires IsCalendarDate(y, m, d)
    ensures DaysBeforeYear(y) + DaysBeforeMonth(y, m - 1) <= MakeDay(y, m - 1, d)
    ensures MakeDay(y, m - 1, d) < DaysBeforeYear(y) + DaysBeforeMonth(y, m - 1) + DaysInMonth(y, m - 1)
    ensures DaysBeforeYear(y) <= MakeDay(y, m - 1, d) < DaysBeforeYear(y) + YearLength(y)
  {
    DaysBeforeMonthBounds(y, m - 1);
  }

  /**
   * For real calendar dates, MakeDay is strictly increasing in calendar
   * order, so distinct dates get distinct day numbers.
   */
  lemma CalendarOrder(y1: int, m1: int, d1: int, y2: int, m2: int, d2: int)
    requires IsCalendarDate(y1, m1, d1) && IsCalendarDate(y2, m2, d2)
    ensures MakeDay(y1, m1 - 1, d1) < MakeDay(y2, m2 - 1, d2) <==>
            (y1 < y2 || (y1 == y2 && (m1 < m2 || (m1 == m2 && d1 < d2))))
    ensures MakeDay(y1, m1 - 1, d1) == MakeDay(y2, m2 - 1, d2) <==> (y1, m1, d1) == (y2, m2, d2)
  {
    CalendarDateBounds(y1, m1, d1);
    CalendarDateBounds(y2, m2, d2);
    if y1 < y2 {
      YearsAreOrdered(y1, y2);
    } else if y2 < y1 {
      YearsAreOrdered(y2, y1);
    } else if m1 < m2 {
      MonthsAreOrdered(y1, m1 - 1, m2 - 1);
    } else if m2 < m1 {
      MonthsAreOrdered(y1, m2 - 1, m1 - 1);
    }
  }

  /** Calendar order (not necessarily strict) carries over to day numbers. */
  lemma CalendarMonotone(y1: int, m1: int, d1: int, y2: int, m2: int, d2: int)
    requires IsCalendarDate(y1, m1, d1) && IsCalendarDate(y2, m2, d2)
    requires y1 < y2 || (y1 == y2 && (m1 < m2 || (m1 == m2 && d1 <= d2)))
    ensures MakeDay(y1, m1 - 1, d1) <= MakeDay(y2, m2 - 1, d2)
  {
    CalendarDateBounds(y1, m1, d1);
    CalendarDateBounds(y2, m2, d2);
    if y1 < y2 {
      YearsAreOrdered(y1, y2);
    } else if m1 < m2 {
      MonthsAreOrdered(y1, m1 - 1, m2 - 1);
    }
  }

  lemma MonthsAreOrdered(y: int, a: int, b: int)
    requires 0 <= a < b < 12
    ensures DaysBeforeMonth(y, a) + DaysInMonth(y, a) <= DaysBeforeMonth(y, b)
  {
  }

  /** The date argument is a plain offset: one more day is the next day number. */
  lemma NextDate(year: int, monthIndex: int, date: int)
    ensures MakeDay(year, monthIndex, date + 1) == MakeDay(year, monthIndex, date) + 1
  {
  }

  /** A month index twelve higher is the same month of the following year. */
  lemma MonthIndexCarries(year: int, monthIndex: int, date: int)
    ensures MakeDay(year, monthIndex + 12, date) == MakeDay(year + 1, monthIndex, date)
  {
    assert (monthIndex + 12) / 12 == monthIndex / 12 + 1;
    assert (monthIndex + 12) % 12 == monthIndex % 12;
  }

  /**
   * A date past the end of its month rolls over into the next month, across
   * a year end too: day `DaysInMonth + k` of a month is day `k` of the next.
   */
  lemma DateOverflowsIntoNextMonth(year: int, monthIndex: int, k: int)
    ensures MakeDay(year, monthIndex, DaysInMonth(year + monthIndex / 12, monthIndex % 12) + k)
         == MakeDay(year, monthIndex + 1, k)
  {
    var y, mn := year + monthIndex / 12, monthIndex % 12;
    MonthStep(y, mn);
    if mn < 11 {
      assert (monthIndex + 1) / 12 == monthIndex / 12;
      assert (monthIndex + 1) % 12 == mn + 1;
    } else {
      assert (monthIndex + 1) / 12 == monthIndex / 12 + 1;
      assert (monthIndex + 1) % 12 == 0;
      YearStep(y);
    }
  }
}

=== FILE: date_validator.dfy ===
/**
 * The date helper of the membership handlers (src/helpers/newDateConverter.js):
 * a `YYYY-MM-DD` string becomes the local-midnight date the `Date`
 * constructor builds from it, and dates before today are refused.
 * Dates are day numbers (see module Calendar); `today` is the day number of
 * the current local midnight, passed in instead of read from the clock.
 */
module DateValidator {
  import opened Wrappers
  import opened Text
  import Calendar

  /** The regular expression `/^\d{4}-\d{2}-\d{2}$/`: exactly ten characters, ASCII digits and two dashes. */
  predicate MatchesDatePattern(s: string) {
    && |s| == 10
    && AllDigits(s[0..4]) && s[4] == '-'
    && AllDigits(s[5..7]) && s[7] == '-'
    && AllDigits(s[8..10])
  }

  /** The three numbers `split("-").map(Number)` reads out of a matching string. */
  datatype Fields = Fields(year: nat, month: nat, day: nat)

  function SplitFields(s: string): (f: Fields)
    requires MatchesDatePattern(s)
    ensures f.year < 10000 && f.month < 100 && f.day < 100
  {
    DigitsValueBound(s[0..4]);
    DigitsValueBound(s[5..7]);
    DigitsValueBound(s[8..10]);
    Fields(DigitsValue(s[0..4]), DigitsValue(s[5..7]), DigitsValue(s[8..10]))
  }

  /** The string a date with these fields is written as: the inverse of SplitFields. */
  function FormatDate(f: Fields): (s: string)
    requires f.year < 10000 && f.month < 100 && f.day < 100
  {
    PadDigits(f.year, 4) + "-" + PadDigits(f.month, 2) + "-" + PadDigits(f.day, 2)
  }

  /** The `Date` constructor reads a year from 0 to 99 as 1900 to 1999. */
  function ConstructorYear(year: int): int {
    if 0 <= year <= 99 then 1900 + year else year
  }

  /** `new Date(year, monthIndex, day)` at local midnight, as a day number. */
  function LocalDate(year: int, monthIndex: int, day: int): int {
    Calendar.MakeDay(ConstructorYear(year), monthIndex, day)
  }

  /** newDateConverter: the month field is one-based, the constructor's month index zero-based. */
  function NewDateConverter(s: string): int
    requires MatchesDatePattern(s)
  {
    var f := SplitFields(s);
    LocalDate(f.year, f.month - 1, f.day)
  }

  /** checkPastDate: strictly before today's midnight. */
  predicate CheckPastDate(date: int, today: int) {
    date < today
  }

  /**
   * newDateConverterAndValidate: None (the source's `null`) for a string of
   * the wrong shape or a date before today, otherwise the constructed date.
   */
  function NewDateConverterAndValidate(s: string, today: int): (r: Option<int>)
    ensures !MatchesDatePattern(s) ==> r == None
    ensures r.Some? ==> today <= r.value
    ensures r.Some? ==> MatchesDatePattern(s) && r.value == NewDateConverter(s)
    ensures MatchesDatePattern(s) && today <= NewDateConverter(s) ==> r.Some?
  {
    if !MatchesDatePattern(s) then None
    else
      var date := NewDateConverter(s);
      if CheckPastDate(date, today) then None else Some(date)
  }

  /** Writing fields and reading them back gives the same fields. */
  lemma FormatThenSplit(f: Fields)
    requires f.year < 10000 && f.month < 100 && f.day < 100
    ensures MatchesDatePattern(FormatDate(f))
    ensures SplitFields(FormatDate(f)) == f
  {
    var s := FormatDate(f);
    assert s[0..4] == PadDigits(f.year, 4);
    assert s[5..7] == PadDigits(f.month, 2);
    assert s[8..10] == PadDigits(f.day, 2);
  }

  /** Every string of the accepted shape is the written form of its own fields. */
  lemma SplitThenFormat(s: string)
    requires MatchesDatePattern(s)
    ensures FormatDate(SplitFields(s)) == s
  {
    var y, m, d := s[0..4], s[5..7], s[8..10];
    PadDigitsOfValue(y);
    PadDigitsOfValue(m);
    PadDigitsOfValue(d);
    var t := y + "-" + m + "-" + d;
    assert FormatDate(SplitFields(s)) == t;
    assert |t| == 10;
    forall i | 0 <= i < 10
      ensures t[i] == s[i]
    {
    }
  }

  /**
   * The validator on a well-formed string, stated through the calendar
   * fields it is written from: the date the constructor builds, or None
   * exactly when that date is before today.
   */
  lemma ValidateFormatted(f: Fields, today: int)
    requires f.year < 10000 && f.month < 100 && f.day < 100
    ensures var date := LocalDate(f.year, f.month - 1, f.day);
            NewDateConverterAndValidate(FormatDate(f), today)
              == if date < today then None else Some(date)
  {
    FormatThenSplit(f);
  }

  /** Today's own date is accepted: the comparison with today's midnight is strict. */
  lemma AcceptsToday(f: Fields)
    requires f.year < 10000 && f.month < 100 && f.day < 100
    ensures var date := LocalDate(f.year, f.month - 1, f.day);
            NewDateConverterAndValidate(FormatDate(f), date) == Some(date)
  {
    ValidateFormatted(f, LocalDate(f.year, f.month - 1, f.day));
  }

  /** Yesterday's date is refused. */
  lemma RejectsYesterday(f: Fields)
    requires f.year < 10000 && f.month < 100 && f.day < 100
    ensures var date := LocalDate(f.year, f.month - 1, f.day);
            NewDateConverterAndValidate(FormatDate(f), date + 1) == None
  {
    ValidateFormatted(f, LocalDate(f.year, f.month - 1, f.day) + 1);
  }

  /** Two written dates the constructor maps to the same day get the same answer. */
  lemma SameDateSameAnswer(f: Fields, g: Fields, today: int)
    requires f.year < 10000 && f.month < 100 && f.day < 100
    requires g.year < 10000 && g.month < 100 && g.day < 100
    requires LocalDate(f.year, f.month - 1, f.day) == LocalDate(g.year, g.month - 1, g.day)
    ensures NewDateConverterAndValidate(FormatDate(f), today) == NewDateConverterAndValidate(FormatDate(g), today)
  {
    ValidateFormatted(f, today);
    ValidateFormatted(g, today);
  }

  lemma LocalDateCarries(year: int, monthIndex: int, day: int)
    requires 100 <= year
    ensures LocalDate(year, monthIndex + 12, day) == LocalDate(year + 1, monthIndex, day)
  {
    Calendar.MonthIndexCarries(year, monthIndex, day);
  }

  lemma LocalDateOverflows(year: int, month: int, k: int)
    requires 100 <= year && 1 <= month <= 12
    ensures var next := if month == 12 then LocalDate(year + 1, 0, k) else LocalDate(year, month, k);
            LocalDate(year, month - 1, Calendar.DaysInMonth(year, month - 1) + k) == next
  {
    assert year + (month - 1) / 12 == year && (month - 1) % 12 == month - 1;
    Calendar.DateOverflowsIntoNextMonth(year, month - 1, k);
    if month == 12 {
      Calendar.MonthIndexCarries(year, 0, k);
    }
  }

  /**
   * Out-of-range days are not refused but roll forward: a day `k` past the
   * end of month `m` is validated as day `k` of the following month (from
   * December into January of the next year).
   */
  lemma DayPastMonthEndRollsOver(year: nat, month: nat, k: nat, today: int)
    requires 100 <= year < 9999 && 1 <= month <= 12 && 1 <= k
    requires Calendar.DaysInMonth(year, month - 1) + k < 100
    ensures var next := if month == 12 then Fields(year + 1, 1, k) else Fields(year, month + 1, k);
            NewDateConverterAndValidate(FormatDate(Fields(year, month, Calendar.DaysInMonth(year, month - 1) + k)), today)
              == NewDateConverterAndValidate(FormatDate(next), today)
  {
    var next := if month == 12 then Fields(year + 1, 1, k) else Fields(year, month + 1, k);
    LocalDateOverflows(year, month, k);
    SameDateSameAnswer(Fields(year, month, Calendar.DaysInMonth(year, month - 1) + k), next, today);
  }

  /**
   * Month fields outside 1..12 are not refused: month `m + 12` is month `m`
   * of the following year (so `2025-13-01` is `2026-01-01`, and `2025-00-10`
   * is `2024-12-10`).
   */
  lemma MonthPastDecemberRollsOver(year: nat, month: nat, day: nat, today: int)
    requires 100 <= year < 9999 && month + 12 < 100 && day < 100
    ensures NewDateConverterAndValidate(FormatDate(Fields(year, month + 12, day)), today)
         == NewDateConverterAndValidate(FormatDate(Fields(year + 1, month, day)), today)
  {
    LocalDateCarries(year, month - 1, day);
    SameDateSameAnswer(Fields(year, month + 12, day), Fields(year + 1, month, day), today);
  }

  lemma LocalDateMonotone(ya: int, ma: int, da: int, yb: int, mb: int, db: int)
    requires 100 <= ya && 100 <= yb
    requires Calendar.IsCalendarDate(ya, ma, da) && Calendar.IsCalendarDate(yb, mb, db)
    requires ya < yb || (ya == yb && (ma < mb || (ma == mb && da <= db)))
    ensures LocalDate(ya, ma - 1, da) <= LocalDate(yb, mb - 1, db)
  {
    Calendar.CalendarMonotone(ya, ma, da, yb, mb, db);
  }

  /**
   * On real calendar dates from year 100 on, acceptance is monotone in
   * calendar order: if a date is accepted, so is every later date.
   */
  lemma LaterDateAlsoAccepted(a: Fields, b: Fields, today: int)
    requires 100 <= a.year < 10000 && 100 <= b.year < 10000
    requires Calendar.IsCalendarDate(a.year, a.month, a.day) && Calendar.IsCalendarDate(b.year, b.month, b.day)
    requires a.year < b.year || (a.year == b.year && (a.month < b.month || (a.month == b.month && a.day <= b.day)))
    requires NewDateConverterAndValidate(FormatDate(a), today).Some?
    ensures NewDateConverterAndValidate(FormatDate(b), today).Some?
  {
    LocalDateMonotone(a.year, a.month, a.day, b.year, b.month, b.day);
    ValidateFormatted(a, today);
    ValidateFormatted(b, today);
  }
}

=== FILE: http.dfy ===
/**
 * What the handlers of src/controllers share: the shape of the first
 * response they write, the parsing of listing queries, and the way a
 * caught error is turned into a status.
 *
 * Request fields arrive already parsed: a body string is `None` when it is
 * undefined or null, and a `parseInt` result is `None` when it is `NaN`.
 */
module Http {
  import opened Wrappers
  import opened Store
  import opened Ordering

  /** Which key of the JSON body carries the text: `message`, or `error` on some failures. */
  datatype Note = MessageKey(text: string) | ErrorKey(text: string)

  /** The first response a handler writes: status, the `success` flag, its text and a payload. */
  datatype Response<+D> = Response(status: int, success: bool, note: Note, data: Option<D>)

  /** A handler's outcome: its first response, the store after it, and whether it reached the service. */
  datatype Handled<+D> = Handled(response: Response<D>, db: Db, serviceCalled: bool)

  /** The query string of a listing request, each value already parsed. */
  datatype Query = Query(page: Option<int>, pageSize: Option<int>, sortBy: Option<string>, order: Option<string>)

  /** JavaScript's `!s` on a body string: undefined, null and "" are falsy. */
  predicate Falsy(s: Option<string>) {
    s.None? || s.value == ""
  }

  /** A 400 answer written before any service call. */
  function Rejected<D>(db: Db, text: string): Handled<D> {
    Handled(Response(400, false, MessageKey(text), None), db, false)
  }

  /** `Math.max(1, parseInt(page) || 1)`: NaN and 0 mean the first page, and no page is below 1. */
  function PageParam(q: Option<int>): (p: int)
    ensures p >= 1
    ensures q.Some? && q.value >= 1 ==> p == q.value
    ensures q.None? || q.value < 1 ==> p == 1
  {
    if q.None? || q.value == 0 then 1
    else if q.value < 1 then 1
    else q.value
  }

  /**
   * `Math.min(50, parseInt(pageSize) || 10)`: NaN and 0 mean 10, and no size
   * is above 50; a negative size is passed on as it is.
   */
  function PageSizeParam(q: Option<int>): (s: int)
    ensures s <= 50
    ensures q.None? || q.value == 0 ==> s == 10
    ensures q.Some? && q.value != 0 && q.value <= 50 ==> s == q.value
    ensures q.Some? && q.value > 50 ==> s == 50
  {
    var v := if q.None? || q.value == 0 then 10 else q.value;
    if v < 50 then v else 50
  }

  /** `order === "desc" ? "desc" : "asc"`. */
  function OrderParam(q: Option<string>): (d: Direction)
    ensures d == Desc <==> q == Some("desc")
  {
    if q == Some("desc") then Desc else Asc
  }

  /** The path parameters Express binds for the listing route "/": none. */
  const ListRouteParams: map<string, string> := map[]

  /** `req.params[name]`, undefined when the route binds no such parameter. */
  function Param(params: map<string, string>, name: string): (r: Option<string>)
    ensures r.Some? <==> name in params
    ensures r.Some? ==> r.value == params[name]
  {
    if name in params then Some(params[name]) else None
  }

  /**
   * The catch block of a handler that classifies: 404 when the error's
   * message contains "not found", otherwise 500. `errorKeyOn500` selects the
   * `error` key for the 500 answer, as updateMembership writes it.
   */
  function Classified<D>(f: Failure, errorKeyOn500: bool): (r: Response<D>)
    ensures r.status == 404 <==> SaysNotFound(f)
    ensures r.status == 500 <==> !SaysNotFound(f)
    ensures !r.success && r.data.None? && r.note.text == Message(f)
    ensures r.note.ErrorKey? <==> r.status == 500 && errorKeyOn500
  {
    if SaysNotFound(f) then Response(404, false, MessageKey(Message(f)), None)
    else if errorKeyOn500 then Response(500, false, ErrorKey(Message(f)), None)
    else Response(500, false, MessageKey(Message(f)), None)
  }

  /** A page of a listing as the handlers echo it: `pageDetails` and the rows. */
  datatype Page<+V> = Page(page: int, pageSize: int, rows: seq<V>)

  /**
   * The listing answer once the service has run: 500 with the error's
   * message if it threw, 200 with `success` false and "members empty" for an
   * empty page, else 200 with the page and `fetched` as the message.
   */
  function Listed<V>(db: Db, page: int, pageSize: int, rows: Result<seq<V>, Failure>, fetched: string)
    : (h: Handled<Page<V>>)
    ensures h.db == db && h.serviceCalled
    ensures h.response.status == 500 <==> rows.Err?
    ensures rows.Err? ==> h.response.note == MessageKey(Message(rows.error)) && !h.response.success
    ensures rows.Ok? ==> h.response.status == 200
    ensures rows.Ok? ==> (h.response.success <==> |rows.value| != 0)
    ensures rows.Ok? && |rows.value| == 0 ==> h.response.note == MessageKey("members empty") && h.response.data.None?
    ensures rows.Ok? && |rows.value| != 0 ==>
              h.response.note == MessageKey(fetched) && h.response.data == Some(Page(page, pageSize, rows.value))
  {
    match rows
    case Err(f) => Handled(Response(500, false, MessageKey(Message(f)), None), db, true)
    case Ok(xs) =>
      if |xs| != 0 then Handled(Response(200, true, MessageKey(fetched), Some(Page(page, pageSize, xs))), db, true)
      else Handled(Response(200, false, MessageKey("members empty"), None), db, true)
  }

  /** A size parameter that is missing or non-negative always yields a non-negative page offset. */
  lemma {:induction false} OffsetNonNegative(page: Option<int>, pageSize: Option<int>)
    requires pageSize.None? || pageSize.value >= 0
    ensures PageOffset(PageParam(page), PageSizeParam(pageSize)) >= 0
  {
    var p, s := PageParam(page), PageSizeParam(pageSize);
    assert p - 1 >= 0 && s >= 0;
    MulNonNegative(p - 1, s);
  }

  lemma MulNonNegative(a: int, b: int)
    requires a >= 0 && b >= 0
    ensures a * b >= 0
  {
  }

  /** A negative size past the first page makes a negative offset, which the ORM refuses. */
  lemma {:induction false} NegativeSizeOffset(page: Option<int>, pageSize: Option<int>)
    requires pageSize.Some? && pageSize.value < 0
    ensures PageSizeParam(pageSize) == pageSize.value
    ensures PageOffset(PageParam(page), PageSizeParam(pageSize)) < 0 <==> PageParam(page) > 1
  {
    var p, s := PageParam(page), PageSizeParam(pageSize);
    if p > 1 {
      MulNegative(p - 1, s);
    } else {
      assert p - 1 == 0;
    }
  }

  lemma MulNegative(a: int, b: int)
    requires a > 0 && b < 0
    ensures a * b < 0
  {
  }
}

=== FILE: member_controller.dfy ===
/**
 * The member handlers (src/controllers/memberController.js), each a function
 * from the store and the parsed request to the first response written.
 */
module MemberController {
  import opened Wrappers
  import opened Store
  import opened Http
  import SortFields
  import MemberService

  /** The record a member handler returns besides its message. */
  datatype Payload =
    | Created(member: Member)
    | Found(view: MemberService.MemberView)

  /** POST /: both fields must be present and non-empty; the store assigns the id. */
  function AddMember(db: Db, name: Option<string>, email: Option<string>): (h: Handled<Payload>)
    ensures h.response.status == 400 <==> Falsy(name) || Falsy(email)
    ensures h.response.status == 400 ==>
              && h.response.note == MessageKey("Name and email must not be empty.")
              && h.db == db && !h.serviceCalled
    ensures h.response.status != 400 ==>
              && h.response.status == 201 && h.response.success && h.serviceCalled
              && h.response.note == MessageKey("Member created successfully")
              && h.response.data.Some? && h.response.data.value.Created?
              && h.response.data.value.member.name == name.value
              && h.response.data.value.member.email == email.value
              && h.db.members == db.members[h.response.data.value.member.id := h.response.data.value.member]
              && h.db.memberships == db.memberships
              && h.db.nextMembershipId == db.nextMembershipId
    ensures Valid(db) && h.response.status == 201 ==> h.response.data.value.member.id !in db.members && Valid(h.db)
  {
    if Falsy(name) || Falsy(email) then Rejected(db, "Name and email must not be empty.")
    else
      var r := MemberService.AddMember(db, name.value, email.value);
      Handled(Response(201, true, MessageKey("Member created successfully"), Some(Created(r.value))), r.db, true)
  }

  /** GET /:id: 200 with the member and its memberships, 404 when there is none. */
  function GetMemberById(db: Db, id: Option<int>): (h: Handled<Payload>)
    ensures h.db == db && h.serviceCalled
    ensures h.response.status == 200 <==> id.Some? && id.value in db.members
    ensures h.response.status == 404 <==> !(id.Some? && id.value in db.members)
    ensures h.response.status == 404 ==> h.response.note == MessageKey("No member matched") && !h.response.success
    ensures h.response.status == 200 ==>
              && h.response.success && h.response.note == MessageKey("Member/s fetched successfully")
              && h.response.data == Some(Found(MemberService.MemberView(db.members[id.value], MemberService.MembershipsOf(db, id.value))))
  {
    match MemberService.GetMemberById(db, id)
    case Some(v) => Handled(Response(200, true, MessageKey("Member/s fetched successfully"), Some(Found(v))), db, true)
    case None => Handled(Response(404, false, MessageKey("No member matched"), None), db, true)
  }

  /**
   * GET /?page&pageSize&sortBy&order: the clamped page of members in the
   * allow-listed order.
   */
  function GetMembersPagination(db: Db, q: Query): (h: Handled<Page<MemberService.MemberView>>)
    ensures h.db == db && h.serviceCalled
    ensures h.response.status == 200 || h.response.status == 500
    ensures h.response.data.Some? ==>
              var p := h.response.data.value;
              && p.page == PageParam(q.page) && p.page >= 1
              && p.pageSize == PageSizeParam(q.pageSize) && p.pageSize <= 50
              && |p.rows| != 0
              && Window(p.rows,
                        MemberService.MembersInOrder(db, SortFields.CheckMemberSortFields(q.sortBy), OrderParam(q.order)),
                        PageOffset(p.page, p.pageSize), p.pageSize)
    ensures h.response.status == 500 <==> PageOffset(PageParam(q.page), PageSizeParam(q.pageSize)) < 0
    ensures h.response.data.Some? ==>
              h.response.success && h.response.note == MessageKey("Member/s fetched successfully")
    ensures h.response.status == 200 && h.response.data.None? ==>
              !h.response.success && h.response.note == MessageKey("members empty")
    ensures var r := MemberService.GetMembersPagination(db, PageParam(q.page), PageSizeParam(q.pageSize),
                                                        SortFields.CheckMemberSortFields(q.sortBy), OrderParam(q.order));
            r.Ok? ==> (h.response.data.Some? <==> |r.value| != 0)
    ensures var r := MemberService.GetMembersPagination(db, PageParam(q.page), PageSizeParam(q.pageSize),
                                                        SortFields.CheckMemberSortFields(q.sortBy), OrderParam(q.order));
            r.Ok? && |r.value| != 0 ==> h.response.data == Some(Page(PageParam(q.page), PageSizeParam(q.pageSize), r.value))
    ensures var offset, size := PageOffset(PageParam(q.page), PageSizeParam(q.pageSize)), PageSizeParam(q.pageSize);
            0 <= offset && 0 < size ==>
              (h.response.data.Some? <==>
                 offset < |MemberService.MembersInOrder(db, SortFields.CheckMemberSortFields(q.sortBy), OrderParam(q.order))|)
  {
    var page := PageParam(q.page);
    var pageSize := PageSizeParam(q.pageSize);
    var sortBy := SortFields.CheckMemberSortFields(q.sortBy);
    var order := OrderParam(q.order);
    Listed(db, page, pageSize, MemberService.GetMembersPagination(db, page, pageSize, sortBy, order),
           "Member/s fetched successfully")
  }

  /**
   * PUT /:id: at least one of the new fields must be truthy; a missing
   * member is classified by its "not found" message.
   */
  function UpdateMember(db: Db, id: Option<int>, newName: Option<string>, newEmail: Option<string>)
    : (h: Handled<Payload>)
    ensures h.response.status == 400 <==> Falsy(newName) && Falsy(newEmail)
    ensures h.response.status == 400 ==>
              h.response.note == MessageKey("Name or email must not be empty.") && h.db == db && !h.serviceCalled
    ensures h.response.status != 400 ==> h.serviceCalled
    ensures !(Falsy(newName) && Falsy(newEmail)) && id.Some? && id.value in db.members ==> h.response.status == 200
    ensures h.response.status != 400 && (id.None? || id.value !in db.members) ==>
              && h.response == Classified(MemberNotFound(id), false)
              && h.db == db
    ensures h.response.status == 200 ==>
              && h.response.success && h.response.note == MessageKey("Member updated successfully")
              && var r := MemberService.UpdateMember(db, id, newName, newEmail);
                 r.Done? && h.response.data == Some(Found(r.value)) && h.db == r.db
  {
    if Falsy(newName) && Falsy(newEmail) then Rejected(db, "Name or email must not be empty.")
    else
      match MemberService.UpdateMember(db, id, newName, newEmail)
      case Threw(f) => Handled(Classified(f, false), db, true)
      case Done(v, db') => Handled(Response(200, true, MessageKey("Member updated successfully"), Some(Found(v))), db', true)
  }

  /** DELETE /:id: the removed member, or the classified "not found" error. */
  function DeleteMember(db: Db, id: Option<int>): (h: Handled<Payload>)
    ensures h.serviceCalled
    ensures h.response.status == 200 <==> id.Some? && id.value in db.members
    ensures h.response.status != 200 ==> h.response == Classified(MemberNotFound(id), false) && h.db == db
    ensures h.response.status == 200 ==>
              && h.response.success
              && h.response.note == MessageKey("Member updated successfully")
              && h.response.data == Some(Found(MemberService.ViewOf(db, db.members[id.value])))
              && h.db.members == db.members - {id.value}
              && h.db.nextMemberId == db.nextMemberId && h.db.nextMembershipId == db.nextMembershipId
    ensures Valid(db) ==> Valid(h.db)
  {
    match MemberService.DeleteMember(db, id)
    case Threw(f) => Handled(Classified(f, false), db, true)
    case Done(v, db') => Handled(Response(200, true, MessageKey("Member updated successfully"), Some(Found(v))), db', true)
  }

  /** An update or delete of a member that is not there answers 404 with the service's message. */
  lemma MissingMemberAnswers404(db: Db, id: Option<int>, newName: Option<string>, newEmail: Option<string>)
    requires id.None? || id.value !in db.members
    requires !(Falsy(newName) && Falsy(newEmail))
    ensures UpdateMember(db, id, newName, newEmail).response.status == 404
    ensures DeleteMember(db, id).response.status == 404
    ensures DeleteMember(db, id).response.note == MessageKey("Member with ID " + IdText(id) + " not found.")
  {
    MemberNotFoundRecognised(id);
  }

  /** A member created through the handler is then found by id with status 200. */
  lemma AddedMemberIsFound(db: Db, name: string, email: string)
    requires Valid(db)
    requires name != "" && email != ""
    ensures var h := AddMember(db, Some(name), Some(email));
            && h.response.status == 201
            && GetMemberById(h.db, Some(h.response.data.value.member.id)).response.status == 200
  {
  }

  /** What an update answers is what a read of the same id answers afterwards. */
  lemma UpdatedMemberIsFound(db: Db, id: Option<int>, newName: Option<string>, newEmail: Option<string>)
    requires Valid(db)
    requires UpdateMember(db, id, newName, newEmail).response.status == 200
    ensures var h := UpdateMember(db, id, newName, newEmail);
            GetMemberById(h.db, id).response.data == h.response.data
  {
    MemberService.UpdateThenGet(db, id, newName, newEmail);
  }

  /** After a delete answers 200, reading and deleting the same id answer 404. */
  lemma DeletedMemberIsGone(db: Db, id: Option<int>)
    requires DeleteMember(db, id).response.status == 200
    ensures var h := DeleteMember(db, id);
            && GetMemberById(h.db, id).response.status == 404
            && DeleteMember(h.db, id).response.status == 404
  {
    var h := DeleteMember(db, id);
    MemberNotFoundRecognised(id);
  }

  /** The listing never fails when the page size asked for is missing or non-negative. */
  lemma ListingWithSizeSucceeds(db: Db, q: Query)
    requires q.pageSize.None? || q.pageSize.value >= 0
    ensures GetMembersPagination(db, q).response.status == 200
  {
    OffsetNonNegative(q.page, q.pageSize);
  }
}

=== FILE: member_service.dfy ===
/**
 * The member service (src/services/memberService.js) over the store of
 * module Store: create, read with memberships, paged listing, partial
 * update and delete, each a function from the store before to the answer
 * and the store after.
 */
module MemberService {
  import opened Wrappers
  import opened Store
  import opened Ordering
  import SortFields

  /** A member record with its memberships joined in (`include: { memberships: true }`). */
  datatype MemberView = MemberView(member: Member, memberships: set<Membership>)

  /** The memberships that name `memberId`. */
  function MembershipsOf(db: Db, memberId: int): (r: set<Membership>)
    ensures forall x | x in r :: x in db.memberships.Values && x.memberId == memberId
    ensures forall k | k in db.memberships && db.memberships[k].memberId == memberId :: db.memberships[k] in r
  {
    var r := set k | k in db.memberships && db.memberships[k].memberId == memberId :: db.memberships[k];
    forall x | x in r
      ensures x in db.memberships.Values
    {
      var k :| k in db.memberships && db.memberships[k].memberId == memberId && db.memberships[k] == x;
    }
    r
  }

  function ViewOf(db: Db, m: Member): MemberView {
    MemberView(m, MembershipsOf(db, m.id))
  }

  /** addMember: a new record under the next autoincrement id; nothing else changes. */
  function AddMember(db: Db, name: string, email: string): (r: Answer<Member>)
    ensures r.Done?
    ensures r.value.name == name && r.value.email == email
    ensures Valid(db) ==> r.value.id !in db.members && Valid(r.db)
    ensures r.db.members == db.members[r.value.id := r.value]
    ensures r.db.memberships == db.memberships
  {
    var m := Member(db.nextMemberId, name, email);
    Done(m, db.(members := db.members[m.id := m], nextMemberId := db.nextMemberId + 1))
  }

  /** getMemberById: the member with its memberships, or nothing (the source's `null`). */
  function GetMemberById(db: Db, id: Option<int>): (r: Option<MemberView>)
    ensures r.Some? <==> id.Some? && id.value in db.members
    ensures r.Some? ==> r.value.member == db.members[id.value]
    ensures r.Some? ==> r.value.memberships == MembershipsOf(db, id.value)
  {
    match Lookup(db.members, id)
    case None => None
    case Some(m) => Some(MemberView(m, MembershipsOf(db, id.value)))
  }

  /** The column a listing sorts members by; the allow-list leaves name, email and id. */
  function MemberKey(field: string): MemberView -> Key {
    (v: MemberView) =>
      if field == "email" then Str(v.member.email)
      else if field == "id" then Num(v.member.id)
      else Str(v.member.name)
  }

  /** Every member once, with its memberships, ordered by `sortBy` in direction `order`. */
  function MembersInOrder(db: Db, sortBy: string, order: Direction): (r: seq<MemberView>)
    ensures Sorted(r, MemberKey(sortBy), order == Desc)
    ensures |r| == |db.members|
    ensures forall k | k in db.members :: ViewOf(db, db.members[k]) in r
    ensures forall i | 0 <= i < |r| :: exists k | k in db.members :: r[i] == ViewOf(db, db.members[k])
  {
    Ordered(db.members, (m: Member) => ViewOf(db, m), MemberKey(sortBy), order == Desc)
  }

  /**
   * getMembersPagination: page `page` of `pageSize` members in the requested
   * order, i.e. the window of the ordered members starting at
   * `(page - 1) * pageSize`; the ORM refuses the query when that offset is
   * negative.
   */
  function GetMembersPagination(db: Db, page: int, pageSize: int, sortBy: string, order: Direction)
    : (r: Result<seq<MemberView>, Failure>)
    requires sortBy in SortFields.MemberFields
    ensures r.Err? <==> PageOffset(page, pageSize) < 0
    ensures r.Ok? ==> Window(r.value, MembersInOrder(db, sortBy, order), PageOffset(page, pageSize), pageSize)
    ensures r.Ok? && pageSize >= 0 ==> |r.value| <= pageSize
  {
    SkipTake(MembersInOrder(db, sortBy, order), PageOffset(page, pageSize), pageSize)
  }

  /**
   * updateMember: a missing id throws "not found" and changes nothing;
   * otherwise name and email are replaced by the new values unless those are
   * null or undefined (`??`), and the updated member is returned.
   */
  function UpdateMember(db: Db, id: Option<int>, newName: Option<string>, newEmail: Option<string>)
    : (r: Answer<MemberView>)
    ensures r.Threw? <==> id.None? || id.value !in db.members
    ensures r.Threw? ==> r.failure == MemberNotFound(id)
    ensures r.Done? ==>
              var k, before := id.value, db.members[id.value];
              && r.db.members.Keys == db.members.Keys
              && r.db.members[k] == r.value.member
              && (forall j | j in db.members && j != k :: r.db.members[j] == db.members[j])
              && r.db.memberships == db.memberships
              && r.db.nextMemberId == db.nextMemberId && r.db.nextMembershipId == db.nextMembershipId
              && r.value.member.id == before.id
              && r.value.member.name == (if newName.Some? then newName.value else before.name)
              && r.value.member.email == (if newEmail.Some? then newEmail.value else before.email)
              && r.value == ViewOf(r.db, r.value.member)
    ensures r.Done? && Valid(db) ==> Valid(r.db)
  {
    match Lookup(db.members, id)
    case None => Threw(MemberNotFound(id))
    case Some(existing) =>
      var updated := existing.(name := newName.GetOr(existing.name), email := newEmail.GetOr(existing.email));
      var db' := db.(members := db.members[id.value := updated]);
      Done(ViewOf(db', updated), db')
  }

  /**
   * deleteMember: a missing id throws "not found" and changes nothing;
   * otherwise exactly that member is removed and returned as it was, with
   * its memberships. Memberships are left alone (see README).
   */
  function DeleteMember(db: Db, id: Option<int>): (r: Answer<MemberView>)
    ensures r.Threw? <==> id.None? || id.value !in db.members
    ensures r.Threw? ==> r.failure == MemberNotFound(id)
    ensures r.Done? ==>
              && r.db.members == db.members - {id.value}
              && r.db.memberships == db.memberships
              && r.value == ViewOf(db, db.members[id.value])
    ensures r.Done? && Valid(db) ==> Valid(r.db)
  {
    match Lookup(db.members, id)
    case None => Threw(MemberNotFound(id))
    case Some(existing) =>
      Done(ViewOf(db, existing), db.(members := db.members - {id.value}))
  }

  /** A member just added is found under its new id, with no memberships yet. */
  lemma AddThenGet(db: Db, name: string, email: string)
    requires Valid(db)
    ensures var r := AddMember(db, name, email);
            GetMemberById(r.db, Some(r.value.id)) == Some(MemberView(r.value, {}))
  {
    var r := AddMember(db, name, email);
    assert forall k | k in r.db.memberships :: r.db.memberships[k].memberId != r.value.id;
    assert MembershipsOf(r.db, r.value.id) == {};
  }

  /** Reading a member back after updating it gives what the update returned. */
  lemma UpdateThenGet(db: Db, id: Option<int>, newName: Option<string>, newEmail: Option<string>)
    requires Valid(db)
    requires UpdateMember(db, id, newName, newEmail).Done?
    ensures var r := UpdateMember(db, id, newName, newEmail);
            GetMemberById(r.db, id) == Some(r.value)
  {
  }

  /** Repeating an update changes nothing more. */
  lemma UpdateIdempotent(db: Db, id: Option<int>, newName: Option<string>, newEmail: Option<string>)
    ensures var r := UpdateMember(db, id, newName, newEmail);
            r.Done? ==> UpdateMember(r.db, id, newName, newEmail) == r
  {
    var r := UpdateMember(db, id, newName, newEmail);
    if r.Done? {
      var again := UpdateMember(r.db, id, newName, newEmail);
      assert again.db.members == r.db.members;
    }
  }

  /** After a delete the member is gone, and a second delete of it throws "not found". */
  lemma DeleteThenGet(db: Db, id: Option<int>)
    requires DeleteMember(db, id).Done?
    ensures var r := DeleteMember(db, id);
            && GetMemberById(r.db, id) == None
            && DeleteMember(r.db, id) == Threw(MemberNotFound(id))
  {
  }
}

=== FILE: membership_controller.dfy ===
/**
 * The membership handlers (src/controllers/membershipController.js), each a
 * function from the store, today's day number and the parsed request to the
 * first response written. `build` selects the membership service as written
 * or repaired (module MembershipService), and for the listing also where the
 * `order` value is read from: as written, from the route's path parameters;
 * repaired, from the query string.
 */
module MembershipController {
  import opened Wrappers
  import opened Store
  import opened Http
  import opened Ordering
  import SortFields
  import DateValidator
  import opened MembershipService

  /** The record a membership handler returns besides its message. */
  datatype Payload = Payload(view: MembershipView)

  const InvalidDate := "Invalid date format. Expected format: YYYY-MM-DD"
  const InvalidStart := "Invalid startDate format. Expected format: YYYY-MM-DD"
  const InvalidEnd := "Invalid endDate format. Expected format: YYYY-MM-DD"

  /** A path id that passed `isNaN(id) || id <= 0`. */
  predicate UsableId(id: Option<int>) {
    id.Some? && id.value > 0
  }

  /**
   * POST /:id: both dates present and non-empty and the member id positive,
   * checked before any date is parsed; then both dates must validate; then
   * the service runs, and any error it throws answers 500 under `error`.
   */
  function AddMembership(db: Db, today: int, memberId: Option<int>, startDate: Option<string>, endDate: Option<string>)
    : (h: Handled<Payload>)
    ensures var fieldsOk := !Falsy(startDate) && !Falsy(endDate) && UsableId(memberId);
            && (!fieldsOk ==> h == Rejected(db, "fields missing or invalid."))
            && (fieldsOk ==>
                  var s, e := DateValidator.NewDateConverterAndValidate(startDate.value, today),
                              DateValidator.NewDateConverterAndValidate(endDate.value, today);
                  && (s.None? || e.None? ==> h == Rejected(db, InvalidDate))
                  && (s.Some? && e.Some? ==>
                        && h.serviceCalled
                        && (h.response.status == 201 <==> memberId.value in db.members)
                        && (h.response.status == 201 ==>
                              && h.response.success
                              && h.response.note == MessageKey("Membership registered successfully")
                              && h.response.data.Some?
                              && h.response.data.value.view.membership.startDate == s.value
                              && h.response.data.value.view.membership.endDate == e.value
                              && h.response.data.value.view.membership.memberId == memberId.value
                              && h.response.data.value.view.member == Some(db.members[memberId.value])
                              && h.db.memberships == db.memberships[h.response.data.value.view.membership.id := h.response.data.value.view.membership]
                              && h.db.members == db.members)
                        && (h.response.status != 201 ==>
                              && h.response.status == 500
                              && h.response.note == ErrorKey(Message(OrmError(ConnectTargetMissing)))
                              && h.db == db)))
    ensures Valid(db) && h.response.status == 201 ==>
              h.response.data.value.view.membership.id !in db.memberships && Valid(h.db)
    ensures h.response.status == 201 ==>
              h.db.nextMemberId == db.nextMemberId && h.db.nextMembershipId > db.nextMembershipId
    ensures h.response.status == 201 ==> today <= h.response.data.value.view.membership.startDate
    ensures h.response.status == 201 ==> today <= h.response.data.value.view.membership.endDate
  {
    if Falsy(startDate) || Falsy(endDate) || !UsableId(memberId) then Rejected(db, "fields missing or invalid.")
    else
      var s := DateValidator.NewDateConverterAndValidate(startDate.value, today);
      var e := DateValidator.NewDateConverterAndValidate(endDate.value, today);
      if s.None? || e.None? then Rejected(db, InvalidDate)
      else
        match MembershipService.AddMembership(db, s.value, e.value, memberId.value)
        case Threw(f) => Handled(Response(500, false, ErrorKey(Message(f)), None), db, true)
        case Done(v, db') => Handled(Response(201, true, MessageKey("Membership registered successfully"), Some(Payload(v))), db', true)
  }

  /** GET /:id: 200 with the membership and its member, or the classified error. */
  function GetMembershipById(build: Build, db: Db, id: Option<int>): (h: Handled<Payload>)
    ensures h.db == db && h.serviceCalled
    ensures h.response.status == 200 <==> id.Some? && id.value in db.memberships
    ensures h.response.status == 200 ==>
              && h.response.success && h.response.note == MessageKey("Membership fetched successfully")
              && h.response.data.Some? && h.response.data.value.view.membership == db.memberships[id.value]
              && h.response.data.value.view.member == Lookup(db.members, Some(db.memberships[id.value].memberId))
    ensures h.response.status != 200 ==>
              h.response == Classified(Rethrown(build, MembershipNotFound(id)), false)
  {
    match MembershipService.GetMembershipById(build, db, id)
    case Err(f) => Handled(Classified(f, false), db, true)
    case Ok(v) => Handled(Response(200, true, MessageKey("Membership fetched successfully"), Some(Payload(v))), db, true)
  }

  /** Where the listing handler finds `order`: the route's path parameters as written, the query when repaired. */
  function ListingOrder(build: Build, q: Query, params: map<string, string>): Direction {
    match build
    case AsWritten => OrderParam(Param(params, "order"))
    case Repaired => OrderParam(q.order)
  }

  /** GET /?page&pageSize&sortBy: the clamped page of memberships in the allow-listed order. */
  function GetMembershipPagination(build: Build, db: Db, q: Query, params: map<string, string>)
    : (h: Handled<Page<MembershipView>>)
    ensures h.db == db && h.serviceCalled
    ensures h.response.status == 200 || h.response.status == 500
    ensures h.response.data.Some? ==>
              var p := h.response.data.value;
              && p.page == PageParam(q.page) && p.page >= 1
              && p.pageSize == PageSizeParam(q.pageSize) && p.pageSize <= 50
              && h.response.note == MessageKey("Membership/s fetched successfully")
              && |p.rows| != 0
              && Window(p.rows,
                        MembershipsInOrder(db, SortFields.CheckMembershipSortFields(q.sortBy), ListingOrder(build, q, params)),
                        PageOffset(p.page, p.pageSize), p.pageSize)
    ensures h.response.status == 500 <==> PageOffset(PageParam(q.page), PageSizeParam(q.pageSize)) < 0
    ensures h.response.data.Some? ==> h.response.success
    ensures h.response.status == 200 && h.response.data.None? ==>
              !h.response.success && h.response.note == MessageKey("members empty")
    ensures var r := MembershipService.GetMembershipPagination(db, PageParam(q.page), PageSizeParam(q.pageSize),
                                                               SortFields.CheckMembershipSortFields(q.sortBy), ListingOrder(build, q, params));
            r.Ok? ==> (h.response.data.Some? <==> |r.value| != 0)
    ensures var r := MembershipService.GetMembershipPagination(db, PageParam(q.page), PageSizeParam(q.pageSize),
                                                               SortFields.CheckMembershipSortFields(q.sortBy), ListingOrder(build, q, params));
            r.Ok? && |r.value| != 0 ==> h.response.data == Some(Page(PageParam(q.page), PageSizeParam(q.pageSize), r.value))
    ensures var offset, size := PageOffset(PageParam(q.page), PageSizeParam(q.pageSize)), PageSizeParam(q.pageSize);
            0 <= offset && 0 < size ==>
              (h.response.data.Some? <==>
                 offset < |MembershipsInOrder(db, SortFields.CheckMembershipSortFields(q.sortBy), ListingOrder(build, q, params))|)
  {
    var page := PageParam(q.page);
    var pageSize := PageSizeParam(q.pageSize);
    var sortBy := SortFields.CheckMembershipSortFields(q.sortBy);
    var order := ListingOrder(build, q, params);
    Listed(db, page, pageSize, MembershipService.GetMembershipPagination(db, page, pageSize, sortBy, order),
           "Membership/s fetched successfully")
  }

  /**
   * A date field of updateMembership: an omitted or empty one keeps `stored`,
   * a supplied one must validate and replaces it.
   */
  function NewDate(field: Option<string>, stored: int, today: int): (r: Option<int>)
    ensures Falsy(field) ==> r == Some(stored)
    ensures !Falsy(field) ==> r == DateValidator.NewDateConverterAndValidate(field.value, today)
  {
    if Falsy(field) then Some(stored) else DateValidator.NewDateConverterAndValidate(field.value, today)
  }

  /**
   * PUT /:id: the id must be usable; the stored membership is read first
   * (its failure classified, with `error` as the 500 key); then startDate,
   * then endDate, are validated if supplied; then both dates are written.
   */
  function UpdateMembership(build: Build, db: Db, today: int, id: Option<int>, startDate: Option<string>, endDate: Option<string>)
    : (h: Handled<Payload>)
    ensures !UsableId(id) ==> h == Rejected(db, "membershipId is missing or invalid.")
    ensures UsableId(id) && id.value !in db.memberships ==>
              h == Handled(Classified(Rethrown(build, MembershipNotFound(id)), true), db, true)
    ensures UsableId(id) && id.value in db.memberships ==>
              var stored := db.memberships[id.value];
              var s, e := NewDate(startDate, stored.startDate, today), NewDate(endDate, stored.endDate, today);
              && (s.None? ==> h == Handled(Response(400, false, MessageKey(InvalidStart), None), db, true))
              && (s.Some? && e.None? ==> h == Handled(Response(400, false, MessageKey(InvalidEnd), None), db, true))
              && (s.Some? && e.Some? ==>
                    && h.response.status == 201
                    && h.response.success
                    && h.response.note == MessageKey("Membership updated successfully")
                    && h.response.data.Some?
                    && h.response.data.value.view.membership == stored.(startDate := s.value, endDate := e.value)
                    && h.response.data.value.view.member == Lookup(db.members, Some(stored.memberId))
                    && h.db.memberships == db.memberships[id.value := h.response.data.value.view.membership]
                    && h.db.members == db.members
                    && h.db.nextMemberId == db.nextMemberId && h.db.nextMembershipId == db.nextMembershipId)
    ensures h.db != db ==> h.response.status == 201
    ensures Valid(db) ==> Valid(h.db)
  {
    if !UsableId(id) then Rejected(db, "membershipId is missing or invalid.")
    else
      match MembershipService.GetMembershipById(build, db, id)
      case Err(f) => Handled(Classified(f, true), db, true)
      case Ok(existing) =>
        var s := NewDate(startDate, existing.membership.startDate, today);
        if s.None? then Handled(Response(400, false, MessageKey(InvalidStart), None), db, true)
        else
          var e := NewDate(endDate, existing.membership.endDate, today);
          if e.None? then Handled(Response(400, false, MessageKey(InvalidEnd), None), db, true)
          else
            match MembershipService.UpdateMembership(build, db, id, s, e)
            case Threw(f) => Handled(Classified(f, true), db, true)
            case Done(v, db') => Handled(Response(201, true, MessageKey("Membership updated successfully"), Some(Payload(v))), db', true)
  }

  /** DELETE /:id: the removed membership, or the classified error. */
  function DeleteMembership(build: Build, db: Db, id: Option<int>): (h: Handled<Payload>)
    ensures h.serviceCalled
    ensures h.response.status == 200 <==> id.Some? && id.value in db.memberships
    ensures h.response.status != 200 ==>
              h.response == Classified(Rethrown(build, MembershipNotFound(id)), false) && h.db == db
    ensures h.response.status == 200 ==>
              && h.response.success && h.response.note == MessageKey("Member deleted successfully")
              && h.response.data.Some? && h.response.data.value.view.membership == db.memberships[id.value]
              && h.response.data.value.view.member == Lookup(db.members, Some(db.memberships[id.value].memberId))
              && h.db.memberships == db.memberships - {id.value}
              && h.db.members == db.members
              && h.db.nextMemberId == db.nextMemberId && h.db.nextMembershipId == db.nextMembershipId
    ensures Valid(db) ==> Valid(h.db)
  {
    match MembershipService.DeleteMembership(build, db, id)
    case Threw(f) => Handled(Classified(f, false), db, true)
    case Done(v, db') => Handled(Response(200, true, MessageKey("Member deleted successfully"), Some(Payload(v))), db', true)
  }

  /**
   * As written, asking for a membership that does not exist answers 500 with
   * "memberId is not defined" from every handler that looks one up: the 404
   * branches cannot be reached.
   */
  lemma MissingMembershipAnswers500(db: Db, today: int, id: Option<int>, startDate: Option<string>, endDate: Option<string>)
    requires UsableId(id) && id.value !in db.memberships
    ensures GetMembershipById(AsWritten, db, id).response == Response(500, false, MessageKey("memberId is not defined"), None)
    ensures DeleteMembership(AsWritten, db, id).response == Response(500, false, MessageKey("memberId is not defined"), None)
    ensures UpdateMembership(AsWritten, db, today, id, startDate, endDate).response
            == Response(500, false, ErrorKey("memberId is not defined"), None)
  {
    UndeclaredMemberIdNotRecognised();
  }

  /** Repaired, the same requests answer 404 with the service's "not found" message. */
  lemma MissingMembershipAnswers404(db: Db, today: int, id: Option<int>, startDate: Option<string>, endDate: Option<string>)
    requires UsableId(id) && id.value !in db.memberships
    ensures var expected := Response(404, false, MessageKey("Membership with ID " + IdText(id) + " not found."), None);
            && GetMembershipById(Repaired, db, id).response == expected
            && DeleteMembership(Repaired, db, id).response == expected
            && UpdateMembership(Repaired, db, today, id, startDate, endDate).response == expected
  {
    MembershipNotFoundRecognised(id);
  }

  /**
   * As written, the listing route binds no `order` parameter, so the order
   * asked for in the query has no effect: the answer is the ascending one.
   */
  lemma ListingIgnoresOrder(db: Db, q: Query)
    ensures ListingOrder(AsWritten, q, ListRouteParams) == Asc
    ensures GetMembershipPagination(AsWritten, db, q, ListRouteParams)
            == GetMembershipPagination(Repaired, db, q.(order := Some("asc")), ListRouteParams)
  {
  }

  /** Repaired, `order=desc` in the query lists memberships in descending order. */
  lemma ListingHonoursOrder(db: Db, q: Query)
    requires q.order == Some("desc")
    ensures var h := GetMembershipPagination(Repaired, db, q, ListRouteParams);
            h.response.data.Some? ==>
              Window(h.response.data.value.rows,
                     MembershipsInOrder(db, SortFields.CheckMembershipSortFields(q.sortBy), Desc),
                     PageOffset(PageParam(q.page), PageSizeParam(q.pageSize)), PageSizeParam(q.pageSize))
  {
  }

  /** An accepted update stores dates no earlier than today for every date it was given. */
  lemma UpdatedDatesAreCurrent(build: Build, db: Db, today: int, id: Option<int>, startDate: Option<string>, endDate: Option<string>)
    requires UpdateMembership(build, db, today, id, startDate, endDate).response.status == 201
    ensures var x := UpdateMembership(build, db, today, id, startDate, endDate).response.data.value.view.membership;
            && (!Falsy(startDate) ==> today <= x.startDate)
            && (!Falsy(endDate) ==> today <= x.endDate)
            && (Falsy(startDate) ==> x.startDate == db.memberships[id.value].startDate)
            && (Falsy(endDate) ==> x.endDate == db.memberships[id.value].endDate)
  {
  }
}

=== FILE: membership_service.dfy ===
/**
 * The membership service (src/services/membershipService.js) over the store
 * of module Store: create a membership for a member, read it with its member,
 * paged listing, partial update of the dates and delete.
 *
 * The catch blocks of getMembershipById, updateMembership and
 * deleteMembership log a template literal that reads `memberId`, a name not
 * in scope in those functions: the file declares it only as addMembership's
 * parameter. Evaluating it throws a ReferenceError, and
 * that error, not the one caught, leaves the function. `Build` selects the
 * service as written or the service with the log message repaired.
 */
module MembershipService {
  import opened Wrappers
  import opened Store
  import opened Ordering
  import SortFields

  datatype Build = AsWritten | Repaired

  /** A membership with its member joined in (`include: { member: true }`). */
  datatype MembershipView = MembershipView(membership: Membership, member: Option<Member>)

  function ViewOf(db: Db, x: Membership): MembershipView {
    MembershipView(x, Lookup(db.members, Some(x.memberId)))
  }

  /** What leaves a catch block that logs `${memberId}` and then rethrows `caught`. */
  function Rethrown(build: Build, caught: Failure): Failure {
    match build
    case AsWritten => ReferenceError("memberId")
    case Repaired => caught
  }

  /**
   * addMembership: a record under the next autoincrement id, connected to
   * member `memberId`. The ORM refuses a `connect` to a member that does not
   * exist; this catch block rethrows what it caught.
   */
  function AddMembership(db: Db, startDate: int, endDate: int, memberId: int): (r: Answer<MembershipView>)
    ensures r.Threw? <==> memberId !in db.members
    ensures r.Threw? ==> r.failure == OrmError(ConnectTargetMissing)
    ensures r.Done? ==>
              var x := r.value.membership;
              && x.startDate == startDate && x.endDate == endDate && x.memberId == memberId
              && r.value.member == Some(db.members[memberId])
              && r.db.memberships == db.memberships[x.id := x]
              && r.db.members == db.members
    ensures r.Done? && Valid(db) ==> r.value.membership.id !in db.memberships && Valid(r.db)
  {
    if memberId !in db.members then Threw(OrmError(ConnectTargetMissing))
    else
      var x := Membership(db.nextMembershipId, startDate, endDate, memberId);
      var db' := db.(memberships := db.memberships[x.id := x], nextMembershipId := db.nextMembershipId + 1);
      Done(ViewOf(db', x), db')
  }

  /**
   * getMembershipById: the membership with its member; a missing id throws
   * "not found" inside the try block, and the catch block then throws
   * whatever `Rethrown` says.
   */
  function GetMembershipById(build: Build, db: Db, id: Option<int>): (r: Result<MembershipView, Failure>)
    ensures r.Ok? <==> id.Some? && id.value in db.memberships
    ensures r.Ok? ==> r.value.membership == db.memberships[id.value]
    ensures r.Ok? ==> r.value.member == Lookup(db.members, Some(r.value.membership.memberId))
    ensures r.Err? && build == AsWritten ==> r.error == ReferenceError("memberId")
    ensures r.Err? && build == Repaired ==> r.error == MembershipNotFound(id)
  {
    match Lookup(db.memberships, id)
    case None => Err(Rethrown(build, MembershipNotFound(id)))
    case Some(x) => Ok(ViewOf(db, x))
  }

  /** The column a listing sorts memberships by; the allow-list leaves startDate, endDate and id. */
  function MembershipKey(field: string): MembershipView -> Key {
    (v: MembershipView) =>
      if field == "startDate" then Num(v.membership.startDate)
      else if field == "id" then Num(v.membership.id)
      else Num(v.membership.endDate)
  }

  /** Every membership once, with its member, ordered by `sortBy` in direction `order`. */
  function MembershipsInOrder(db: Db, sortBy: string, order: Direction): (r: seq<MembershipView>)
    ensures Sorted(r, MembershipKey(sortBy), order == Desc)
    ensures |r| == |db.memberships|
    ensures forall k | k in db.memberships :: ViewOf(db, db.memberships[k]) in r
    ensures forall i | 0 <= i < |r| :: exists k | k in db.memberships :: r[i] == ViewOf(db, db.memberships[k])
  {
    Ordered(db.memberships, (x: Membership) => ViewOf(db, x), MembershipKey(sortBy), order == Desc)
  }

  /**
   * getMembershipPagination: the window of the ordered memberships starting
   * at `(page - 1) * pageSize`; the ORM refuses a negative offset. This catch
   * block logs no undeclared name, so it rethrows what it caught.
   */
  function GetMembershipPagination(db: Db, page: int, pageSize: int, sortBy: string, order: Direction)
    : (r: Result<seq<MembershipView>, Failure>)
    requires sortBy in SortFields.MembershipFields
    ensures r.Err? <==> PageOffset(page, pageSize) < 0
    ensures r.Err? ==> r.error == OrmError(NegativeSkip)
    ensures r.Ok? ==> Window(r.value, MembershipsInOrder(db, sortBy, order), PageOffset(page, pageSize), pageSize)
    ensures r.Ok? && pageSize >= 0 ==> |r.value| <= pageSize
  {
    SkipTake(MembershipsInOrder(db, sortBy, order), PageOffset(page, pageSize), pageSize)
  }

  /**
   * updateMembership: a missing id throws "not found" (then `Rethrown`) and
   * changes nothing; otherwise each date is replaced by the new one unless
   * that is null or undefined (`??`), and the updated membership is returned
   * with its member.
   */
  function UpdateMembership(build: Build, db: Db, id: Option<int>, newStart: Option<int>, newEnd: Option<int>)
    : (r: Answer<MembershipView>)
    ensures r.Threw? <==> id.None? || id.value !in db.memberships
    ensures r.Threw? && build == AsWritten ==> r.failure == ReferenceError("memberId")
    ensures r.Threw? && build == Repaired ==> r.failure == MembershipNotFound(id)
    ensures r.Done? ==>
              var k, before, x := id.value, db.memberships[id.value], r.value.membership;
              && r.db.memberships.Keys == db.memberships.Keys
              && r.db.memberships[k] == x
              && (forall j | j in db.memberships && j != k :: r.db.memberships[j] == db.memberships[j])
              && r.db.members == db.members
              && r.db.nextMemberId == db.nextMemberId && r.db.nextMembershipId == db.nextMembershipId
              && x.id == before.id && x.memberId == before.memberId
              && x.startDate == (if newStart.Some? then newStart.value else before.startDate)
              && x.endDate == (if newEnd.Some? then newEnd.value else before.endDate)
              && r.value.member == Lookup(db.members, Some(x.memberId))
    ensures r.Done? && Valid(db) ==> Valid(r.db)
  {
    match Lookup(db.memberships, id)
    case None => Threw(Rethrown(build, MembershipNotFound(id)))
    case Some(existing) =>
      var updated := existing.(startDate := newStart.GetOr(existing.startDate), endDate := newEnd.GetOr(existing.endDate));
      var db' := db.(memberships := db.memberships[id.value := updated]);
      Done(ViewOf(db', updated), db')
  }

  /**
   * deleteMembership: a missing id throws "not found" (then `Rethrown`) and
   * changes nothing; otherwise exactly that membership is removed and
   * returned as it was, with its member.
   */
  function DeleteMembership(build: Build, db: Db, id: Option<int>): (r: Answer<MembershipView>)
    ensures r.Threw? <==> id.None? || id.value !in db.memberships
    ensures r.Threw? && build == AsWritten ==> r.failure == ReferenceError("memberId")
    ensures r.Threw? && build == Repaired ==> r.failure == MembershipNotFound(id)
    ensures r.Done? ==>
              && r.db.memberships == db.memberships - {id.value}
              && r.db.members == db.members
              && r.value.membership == db.memberships[id.value]
              && r.value.member == Lookup(db.members, Some(r.value.membership.memberId))
    ensures r.Done? && Valid(db) ==> Valid(r.db)
  {
    match Lookup(db.memberships, id)
    case None => Threw(Rethrown(build, MembershipNotFound(id)))
    case Some(existing) =>
      Done(ViewOf(db, existing), db.(memberships := db.memberships - {id.value}))
  }

  /** A membership just added is found under its new id, with its member. */
  lemma AddThenGet(build: Build, db: Db, startDate: int, endDate: int, memberId: int)
    requires memberId in db.members
    ensures var r := AddMembership(db, startDate, endDate, memberId);
            && r.Done?
            && GetMembershipById(build, r.db, Some(r.value.membership.id)) == Ok(r.value)
  {
  }

  /** Reading a membership back after updating it gives what the update returned. */
  lemma UpdateThenGet(build: Build, db: Db, id: Option<int>, newStart: Option<int>, newEnd: Option<int>)
    requires UpdateMembership(build, db, id, newStart, newEnd).Done?
    ensures var r := UpdateMembership(build, db, id, newStart, newEnd);
            GetMembershipById(build, r.db, id) == Ok(r.value)
  {
  }

  /** After a delete the membership is gone: reading or deleting it again fails as a missing id does. */
  lemma DeleteThenGet(build: Build, db: Db, id: Option<int>)
    requires DeleteMembership(build, db, id).Done?
    ensures var r := DeleteMembership(build, db, id);
            && GetMembershipById(build, r.db, id) == Err(Rethrown(build, MembershipNotFound(id)))
            && DeleteMembership(build, r.db, id) == Threw(Rethrown(build, MembershipNotFound(id)))
  {
  }

  /**
   * The failure of every lookup by id in the service as written is the
   * ReferenceError, whose message the handlers' "not found" test does not
   * match; in the repaired service it is the "not found" error, which they do.
   */
  lemma MissingMembershipClassified(db: Db, id: Option<int>)
    requires id.None? || id.value !in db.memberships
    ensures GetMembershipById(AsWritten, db, id).Err?
    ensures !SaysNotFound(GetMembershipById(AsWritten, db, id).error)
    ensures SaysNotFound(GetMembershipById(Repaired, db, id).error)
    ensures !SaysNotFound(DeleteMembership(AsWritten, db, id).failure)
    ensures SaysNotFound(DeleteMembership(Repaired, db, id).failure)
    ensures !SaysNotFound(UpdateMembership(AsWritten, db, id, None, None).failure)
  {
    UndeclaredMemberIdNotRecognised();
    MembershipNotFoundRecognised(id);
  }
}

=== FILE: ordering.dfy ===
/**
 * The orderings a listing query asks the database for: one column, ascending
 * or descending. Text columns compare code point by code point, numeric and
 * date columns numerically. Records with equal keys may come back in any
 * order, and the contracts here promise none.
 */
module Ordering {

  /** The `order` of a listing query. */
  datatype Direction = Asc | Desc

  /** A column value of one record. */
  datatype Key = Num(n: int) | Str(s: string)

  /** Lexicographic order on strings, a proper prefix first. */
  predicate StrLe(a: string, b: string)
    decreases |a|
  {
    if |a| == 0 then true
    else if |b| == 0 then false
    else if a[0] != b[0] then a[0] < b[0]
    else StrLe(a[1..], b[1..])
  }

  lemma {:induction false} StrLeTotal(a: string, b: string)
    ensures StrLe(a, b) || StrLe(b, a)
    decreases |a|
  {
    if |a| > 0 && |b| > 0 && a[0] == b[0] {
      StrLeTotal(a[1..], b[1..]);
    }
  }

  lemma {:induction false} StrLeTransitive(a: string, b: string, c: string)
    requires StrLe(a, b) && StrLe(b, c)
    ensures StrLe(a, c)
    decreases |a|
  {
    if |a| > 0 && |b| > 0 && |c| > 0 && a[0] == b[0] && b[0] == c[0] {
      StrLeTransitive(a[1..], b[1..], c[1..]);
    }
  }

  /** A total preorder on keys; numbers sort before text (a column never mixes the two). */
  predicate KeyLe(a: Key, b: Key) {
    match (a, b)
    case (Num(x), Num(y)) => x <= y
    case (Str(x), Str(y)) => StrLe(x, y)
    case (Num(_), Str(_)) => true
    case (Str(_), Num(_)) => false
  }

  lemma KeyLeTotal(a: Key, b: Key)
    ensures KeyLe(a, b) || KeyLe(b, a)
  {
    if a.Str? && b.Str? {
      StrLeTotal(a.s, b.s);
    }
  }

  lemma KeyLeTransitive(a: Key, b: Key, c: Key)
    requires KeyLe(a, b) && KeyLe(b, c)
    ensures KeyLe(a, c)
  {
    if a.Str? && b.Str? && c.Str? {
      StrLeTransitive(a.s, b.s, c.s);
    }
  }

  /** `a` may come before `b` in a listing in the given direction. */
  predicate InOrder(a: Key, b: Key, descending: bool) {
    if descending then KeyLe(b, a) else KeyLe(a, b)
  }

  lemma InOrderTotal(a: Key, b: Key, descending: bool)
    ensures InOrder(a, b, descending) || InOrder(b, a, descending)
  {
    KeyLeTotal(a, b);
  }

  lemma InOrderTransitive(a: Key, b: Key, c: Key, descending: bool)
    requires InOrder(a, b, descending) && InOrder(b, c, descending)
    ensures InOrder(a, c, descending)
  {
    if descending {
      KeyLeTransitive(c, b, a);
    } else {
      KeyLeTransitive(a, b, c);
    }
  }

  ghost predicate Sorted<T>(xs: seq<T>, key: T -> Key, descending: bool) {
    forall i, j | 0 <= i < j < |xs| :: InOrder(key(xs[i]), key(xs[j]), descending)
  }

  /** Places `x` before the first element it may precede. */
  function Insert<T>(x: T, xs: seq<T>, key: T -> Key, descending: bool): (r: seq<T>)
    requires Sorted(xs, key, descending)
    ensures Sorted(r, key, descending)
    ensures multiset(r) == multiset(xs) + multiset{x}
    ensures |r| == |xs| + 1
    decreases |xs|
  {
    if |xs| == 0 then [x]
    else if InOrder(key(x), key(xs[0]), descending) then
      InsertFront(x, xs, key, descending);
      [x] + xs
    else
      var rest := Insert(x, xs[1..], key, descending);
      InsertBehind(x, xs, rest, key, descending);
      assert xs == [xs[0]] + xs[1..];
      [xs[0]] + rest
  }

  lemma InsertFront<T>(x: T, xs: seq<T>, key: T -> Key, descending: bool)
    requires Sorted(xs, key, descending) && |xs| > 0
    requires InOrder(key(x), key(xs[0]), descending)
    ensures Sorted([x] + xs, key, descending)
  {
    var r := [x] + xs;
    forall i, j | 0 <= i < j < |r|
      ensures InOrder(key(r[i]), key(r[j]), descending)
    {
      if i == 0 && j > 1 {
        InOrderTransitive(key(x), key(xs[0]), key(xs[j - 1]), descending);
      }
    }
  }

  lemma InsertBehind<T>(x: T, xs: seq<T>, rest: seq<T>, key: T -> Key, descending: bool)
    requires Sorted(xs, key, descending) && |xs| > 0
    requires !InOrder(key(x), key(xs[0]), descending)
    requires Sorted(rest, key, descending)
    requires multiset(rest) == multiset(xs[1..]) + multiset{x}
    ensures Sorted([xs[0]] + rest, key, descending)
  {
    InOrderTotal(key(x), key(xs[0]), descending);
    var r := [xs[0]] + rest;
    forall j | 1 <= j < |r|
      ensures InOrder(key(xs[0]), key(r[j]), descending)
    {
      var y := rest[j - 1];
      assert y in multiset(rest);
      if y != x {
        assert y in multiset(xs[1..]);
        var k :| 0 <= k < |xs[1..]| && xs[1..][k] == y;
        assert xs[k + 1] == y;
      }
    }
  }

  /** Insertion sort: a sorted permutation of `xs`; equal keys end up in no promised order. */
  function SortBy<T>(xs: seq<T>, key: T -> Key, descending: bool): (r: seq<T>)
    ensures Sorted(r, key, descending)
    ensures multiset(r) == multiset(xs)
    ensures |r| == |xs|
  {
    if |xs| == 0 then []
    else
      var sortedInit := SortBy(xs[..|xs| - 1], key, descending);
      assert xs == xs[..|xs| - 1] + [xs[|xs| - 1]];
      Insert(xs[|xs| - 1], sortedInit, key, descending)
  }
}

=== FILE: sort_fields.dfy ===
/**
 * The sort-key allow-lists of the listing endpoints
 * (src/helpers/allowedSortFields.js). A client-supplied `sortBy` becomes a
 * column name only if it is one of three known fields; anything else,
 * a missing value included, is silently replaced by a default.
 */
module SortFields {
  import opened Wrappers

  const MemberFields: set<string> := {"name", "email", "id"}
  const MembershipFields: set<string> := {"startDate", "endDate", "id"}

  /** `allowed.includes(sortBy) ? sortBy : default`, with None for an absent query value. */
  function AllowListed(allowed: set<string>, default: string, sortBy: Option<string>): (r: string)
    requires default in allowed
    ensures r in allowed
    ensures sortBy.Some? && sortBy.value in allowed ==> r == sortBy.value
    ensures (sortBy.None? || sortBy.value !in allowed) ==> r == default
  {
    if sortBy.Some? && sortBy.value in allowed then sortBy.value else default
  }

  /** checkMemberSortFields: one of name, email, id; name by default. */
  function CheckMemberSortFields(sortBy: Option<string>): (r: string)
    ensures r in MemberFields
    ensures sortBy.Some? && sortBy.value in MemberFields ==> r == sortBy.value
    ensures (sortBy.None? || sortBy.value !in MemberFields) ==> r == "name"
  {
    AllowListed(MemberFields, "name", sortBy)
  }

  /** checkMembershipSortFields: one of startDate, endDate, id; endDate by default. */
  function CheckMembershipSortFields(sortBy: Option<string>): (r: string)
    ensures r in MembershipFields
    ensures sortBy.Some? && sortBy.value in MembershipFields ==> r == sortBy.value
    ensures (sortBy.None? || sortBy.value !in MembershipFields) ==> r == "endDate"
  {
    AllowListed(MembershipFields, "endDate", sortBy)
  }

  /** The allow-listed fields are exactly the fixed points of the member check. */
  lemma MemberFixedPoints(field: string)
    ensures CheckMemberSortFields(Some(field)) == field <==> field in MemberFields
  {
  }

  lemma MembershipFixedPoints(field: string)
    ensures CheckMembershipSortFields(Some(field)) == field <==> field in MembershipFields
  {
  }

  /** Checking an already checked key changes nothing. */
  lemma MemberCheckIdempotent(sortBy: Option<string>)
    ensures CheckMemberSortFields(Some(CheckMemberSortFields(sortBy))) == CheckMemberSortFields(sortBy)
  {
  }

  lemma MembershipCheckIdempotent(sortBy: Option<string>)
    ensures CheckMembershipSortFields(Some(CheckMembershipSortFields(sortBy))) == CheckMembershipSortFields(sortBy)
  {
  }
}

=== FILE: store.dfy ===
/**
 * The relational store behind the services, as values: one map per table,
 * keyed by primary key, plus the next value of each autoincrement id.
 * Also the errors the services throw and the ORM's skip/take paging.
 */
module Store {
  import opened Wrappers
  import opened Text
  import opened Ordering

  datatype Member = Member(id: int, name: string, email: string)

  /** Dates are day numbers of local midnights (module Calendar). */
  datatype Membership = Membership(id: int, startDate: int, endDate: int, memberId: int)

  datatype Db = Db(
    members: map<int, Member>,
    memberships: map<int, Membership>,
    nextMemberId: int,
    nextMembershipId: int)

  /**
   * The states the operations keep: each record is stored under its own id,
   * ids already handed out are positive and below the counters, and a
   * membership names a member id that has been handed out.
   */
  ghost predicate Valid(db: Db) {
    && 1 <= db.nextMemberId && 1 <= db.nextMembershipId
    && (forall k | k in db.members :: db.members[k].id == k && 1 <= k < db.nextMemberId)
    && (forall k | k in db.memberships ::
          db.memberships[k].id == k && 1 <= k < db.nextMembershipId
          && db.memberships[k].memberId < db.nextMemberId)
  }


  /** `findUnique({ where: { id } })`: the record under a parsed id, none for `NaN`. */
  function Lookup<V>(table: map<int, V>, id: Option<int>): (r: Option<V>)
    ensures r.Some? <==> id.Some? && id.value in table
    ensures r.Some? ==> r.value == table[id.value]
  {
    if id.Some? && id.value in table then Some(table[id.value]) else None
  }

  /** What makes the ORM refuse a request; its own wording is not part of this model. */
  datatype OrmReason =
    | ConnectTargetMissing  // a nested `connect` names a member id that has no record
    | NegativeSkip          // `skip` below zero

  /** An error a service throws, as the handlers see it. */
  datatype Failure =
    | MemberNotFound(memberId: Option<int>)
    | MembershipNotFound(membershipId: Option<int>)
    | ReferenceError(identifier: string)  // reading a variable that was never declared
    | OrmError(reason: OrmReason)

  /** An id as a template literal writes it: `NaN` for a failed parse. */
  function IdText(id: Option<int>): string {
    match id
    case None => "NaN"
    case Some(n) => NumberToString(n)
  }

  /** The error's `message` property. */
  function Message(f: Failure): string {
    match f
    case MemberNotFound(id) => "Member with ID " + IdText(id) + " not found."
    case MembershipNotFound(id) => "Membership with ID " + IdText(id) + " not found."
    case ReferenceError(name) => name + " is not defined"
    case OrmError(ConnectTargetMissing) => "required connected record missing"
    case OrmError(NegativeSkip) => "invalid skip value"
  }

  /** The controllers' test `e.message.includes("not found")`. */
  predicate SaysNotFound(f: Failure) {
    Contains(Message(f), "not found")
  }

  /** The services' own "not found" errors are recognised by the controllers' substring test. */
  lemma MemberNotFoundRecognised(id: Option<int>)
    ensures SaysNotFound(MemberNotFound(id))
  {
    var prefix := "Member with ID " + IdText(id) + " ";
    assert Message(MemberNotFound(id)) == prefix + "not found" + ".";
    ContainsInMiddle(prefix, "not found", ".");
  }

  lemma MembershipNotFoundRecognised(id: Option<int>)
    ensures SaysNotFound(MembershipNotFound(id))
  {
    var prefix := "Membership with ID " + IdText(id) + " ";
    assert Message(MembershipNotFound(id)) == prefix + "not found" + ".";
    ContainsInMiddle(prefix, "not found", ".");
  }

  /** The error for the undeclared `memberId` does not pass the substring test. */
  lemma UndeclaredMemberIdNotRecognised()
    ensures Message(ReferenceError("memberId")) == "memberId is not defined"
    ensures !SaysNotFound(ReferenceError("memberId"))
  {
    var m := Message(ReferenceError("memberId"));
    assert "not found"[6] == 'u';
    assert 'u' !in m;
    MissingCharNotContained(m, "not found", 6);
  }

  /** The outcome of a service call: its value and the store after it, or the error it threw. */
  datatype Answer<+T> = Done(value: T, db: Db) | Threw(failure: Failure)

  predicate StrictlyIncreasing(r: seq<int>) {
    forall i, j | 0 <= i < j < |r| :: r[i] < r[j]
  }

  /** The keys of a finite set of ids in ascending order. */
  function IdsAscending(ks: set<int>): (r: seq<int>)
    ensures |r| == |ks|
    ensures forall k :: k in r <==> k in ks
    ensures StrictlyIncreasing(r)
    decreases |ks|
  {
    if ks == {} then []
    else
      LeastExists(ks);
      var least :| least in ks && forall k | k in ks :: least <= k;
      var rest := IdsAscending(ks - {least});
      PrependLeast(least, ks, rest);
      [least] + rest
  }

  lemma PrependLeast(least: int, ks: set<int>, rest: seq<int>)
    requires least in ks && forall k | k in ks :: least <= k
    requires |rest| == |ks - {least}|
    requires forall k :: k in rest <==> k in ks - {least}
    requires StrictlyIncreasing(rest)
    ensures |[least] + rest| == |ks|
    ensures forall k :: k in [least] + rest <==> k in ks
    ensures StrictlyIncreasing([least] + rest)
  {
    var r := [least] + rest;
    forall j | 1 <= j < |r|
      ensures least < r[j]
    {
      assert r[j] == rest[j - 1];
      assert rest[j - 1] in rest;
    }
  }

  /** A set other than the empty set has an element. */
  lemma HasElement(ks: set<int>)
    requires ks != {}
    ensures exists x :: x in ks
  {
    if forall x :: x !in ks {
      assert false;
    }
  }

  lemma {:induction false} LeastExists(ks: set<int>)
    requires ks != {}
    ensures exists m :: m in ks && forall k | k in ks :: m <= k
    decreases |ks|
  {
    HasElement(ks);
    var x :| x in ks;
    if ks != {x} {
      LeastExists(ks - {x});
      var m :| m in ks - {x} && forall k | k in ks - {x} :: m <= k;
      var least := if x < m then x else m;
      assert forall k | k in ks :: k == x || k in ks - {x};
      assert least in ks && forall k | k in ks :: least <= k;
    } else {
      assert forall k | k in ks :: k == x;
    }
  }

  /** The records stored under `ids`, in that order, each shown through `view`. */
  function ViewsAt<V, W>(table: map<int, V>, view: V -> W, ids: seq<int>): (r: seq<W>)
    requires forall i | 0 <= i < |ids| :: ids[i] in table
    ensures |r| == |ids|
    ensures forall i | 0 <= i < |ids| :: r[i] == view(table[ids[i]])
  {
    if |ids| == 0 then [] else [view(table[ids[0]])] + ViewsAt(table, view, ids[1..])
  }

  /**
   * `findMany` with `orderBy`: every record of the table, shown through
   * `view` (the record joined with its relation), sorted by `key`: as many
   * rows as records, and every record's view among them, so each view
   * appears exactly once when `view` tells the records apart. Records are
   * visited in ascending key order before sorting.
   */
  function Ordered<V, W(==)>(table: map<int, V>, view: V -> W, key: W -> Key, descending: bool): (r: seq<W>)
    ensures Sorted(r, key, descending)
    ensures |r| == |table|
    ensures forall k | k in table :: view(table[k]) in r
    ensures forall i | 0 <= i < |r| :: exists k | k in table :: r[i] == view(table[k])
  {
    var ids := IdsAscending(table.Keys);
    assert forall i | 0 <= i < |ids| :: ids[i] in table by {
      forall i | 0 <= i < |ids| ensures ids[i] in table {
        assert ids[i] in ids;
      }
    }
    var views := ViewsAt(table, view, ids);
    var r := SortBy(views, key, descending);
    OrderedCovers(table, view, ids, views, r);
    r
  }

  lemma OrderedCovers<V, W>(table: map<int, V>, view: V -> W, ids: seq<int>, views: seq<W>, r: seq<W>)
    requires forall k :: k in ids <==> k in table
    requires |views| == |ids|
    requires forall i | 0 <= i < |ids| :: ids[i] in table && views[i] == view(table[ids[i]])
    requires multiset(r) == multiset(views)
    ensures forall k | k in table :: view(table[k]) in r
    ensures forall i | 0 <= i < |r| :: exists k | k in table :: r[i] == view(table[k])
  {
    forall k | k in table
      ensures view(table[k]) in r
    {
      assert k in ids;
      var i :| 0 <= i < |ids| && ids[i] == k;
      assert views[i] in multiset(views);
    }
    forall i | 0 <= i < |r|
      ensures exists k | k in table :: r[i] == view(table[k])
    {
      assert r[i] in multiset(views);
      var j :| 0 <= j < |views| && views[j] == r[i];
      var k := ids[j];
      assert k in ids;
      assert k in table && r[i] == view(table[k]);
    }
  }

  /** The offset of page `page` (counted from 1) of `pageSize` rows: `(page - 1) * pageSize`. */
  function PageOffset(page: int, pageSize: int): int {
    (page - 1) * pageSize
  }

  /**
   * `w` is what is left of `xs` after skipping `skip` rows and keeping at
   * most `take`: a contiguous run of `xs` starting at `skip`.
   */
  ghost predicate Window<T>(w: seq<T>, xs: seq<T>, skip: int, take: int) {
    0 <= skip && 0 <= take ==>
      && |w| == (if skip + take <= |xs| then take else if skip <= |xs| then |xs| - skip else 0)
      && forall i | 0 <= i < |w| :: w[i] == xs[skip + i]
  }

  /**
   * A negative `take`: the last `-take` rows (or fewer, when the table is
   * short) that come before the final `skip` rows.
   */
  ghost predicate BackWindow<T>(w: seq<T>, xs: seq<T>, skip: int, take: int) {
    0 <= skip && take < 0 ==>
      var before := if skip <= |xs| then |xs| - skip else 0;
      && |w| == (if -take <= before then -take else before)
      && forall i | 0 <= i < |w| :: w[i] == xs[before - |w| + i]
  }

  /**
   * The ORM's `skip`/`take` on an ordered result: a negative skip is refused;
   * a non-negative take keeps the window after the skipped rows; a negative
   * take counts backwards from the end instead.
   */
  function SkipTake<T>(xs: seq<T>, skip: int, take: int): (r: Result<seq<T>, Failure>)
    ensures skip < 0 <==> r.Err?
    ensures r.Err? ==> r.error == OrmError(NegativeSkip)
    ensures r.Ok? ==> Window(r.value, xs, skip, take)
    ensures r.Ok? && take >= 0 ==> |r.value| <= take
    ensures r.Ok? && take < 0 ==> |r.value| <= -take && multiset(r.value) <= multiset(xs)
    ensures r.Ok? ==> BackWindow(r.value, xs, skip, take)
  {
    if skip < 0 then Err(OrmError(NegativeSkip))
    else if take >= 0 then
      var from := if skip <= |xs| then skip else |xs|;
      var to := if skip + take <= |xs| then skip + take else |xs|;
      Ok(xs[from..to])
    else
      var to := if skip <= |xs| then |xs| - skip else 0;
      var from := if to + take >= 0 then to + take else 0;
      assert xs == xs[..from] + xs[from..to] + xs[to..];
      Ok(xs[from..to])
  }
}

=== FILE: text.dfy ===
/** Strings, decimal digits and substring search, as the handlers and validators use them. */
module Text {

  predicate IsDigit(c: char) {
    '0' <= c <= '9'
  }

  predicate AllDigits(s: string) {
    forall i | 0 <= i < |s| :: IsDigit(s[i])
  }

  function DigitValue(c: char): (v: nat)
    requires IsDigit(c)
    ensures v < 10
  {
    (c as int) - ('0' as int)
  }

  function DigitChar(v: nat): (c: char)
    requires v < 10
    ensures IsDigit(c) && DigitValue(c) == v
  {
    (('0' as int) + v) as char
  }

  function Pow10(n: nat): (p: nat)
    ensures p >= 1
  {
    if n == 0 then 1 else 10 * Pow10(n - 1)
  }

  /** The number a run of decimal digits denotes, most significant first: `Number("0042") == 42`. */
  function DigitsValue(s: string): nat
    requires AllDigits(s)
  {
    if |s| == 0 then 0 else 10 * DigitsValue(s[..|s| - 1]) + DigitValue(s[|s| - 1])
  }

  lemma {:induction false} DigitsValueBound(s: string)
    requires AllDigits(s)
    ensures DigitsValue(s) < Pow10(|s|)
  {
    if |s| > 0 {
      DigitsValueBound(s[..|s| - 1]);
    }
  }

  /** `v` written with exactly `width` digits, zero-padded on the left. */
  function PadDigits(v: nat, width: nat): (s: string)
    requires v < Pow10(width)
    ensures |s| == width && AllDigits(s)
    ensures DigitsValue(s) == v
  {
    if width == 0 then ""
    else
      var init := PadDigits(v / 10, width - 1);
      var s := init + [DigitChar(v % 10)];
      assert s[..|s| - 1] == init;
      s
  }

  /** Reading a digit run and writing it back at the same width gives the run itself. */
  lemma {:induction false} PadDigitsOfValue(s: string)
    requires AllDigits(s)
    ensures DigitsValue(s) < Pow10(|s|)
    ensures PadDigits(DigitsValue(s), |s|) == s
  {
    DigitsValueBound(s);
    if |s| > 0 {
      var init, last := s[..|s| - 1], s[|s| - 1];
      PadDigitsOfValue(init);
      var v := DigitsValue(s);
      assert v == 10 * DigitsValue(init) + DigitValue(last);
      assert v / 10 == DigitsValue(init) && v % 10 == DigitValue(last);
      assert DigitChar(DigitValue(last)) == last;
      assert s == init + [last];
    }
  }

  /** Decimal rendering of a natural number, without leading zeros. */
  function NatToString(n: nat): (s: string)
    ensures |s| >= 1 && AllDigits(s)
    ensures DigitsValue(s) == n
    decreases n
  {
    if n < 10 then [DigitChar(n)]
    else
      var init := NatToString(n / 10);
      var s := init + [DigitChar(n % 10)];
      assert s[..|s| - 1] == init;
      s
  }

  /** JavaScript's rendering of a number in a template literal, for the integers. */
  function NumberToString(n: int): string {
    if n < 0 then "-" + NatToString(-n) else NatToString(n)
  }

  /** JavaScript's `s.includes(t)`. */
  predicate Contains(s: string, t: string) {
    exists i | 0 <= i <= |s| :: OccursAt(s, t, i)
  }

  /** `t` occurs in `s` starting at index `i`. */
  predicate OccursAt(s: string, t: string, i: int) {
    0 <= i && i + |t| <= |s| && s[i..i + |t|] == t
  }

  lemma ContainsInMiddle(a: string, t: string, b: string)
    ensures Contains(a + t + b, t)
  {
    var s := a + t + b;
    assert s[|a|..|a| + |t|] == t;
    assert OccursAt(s, t, |a|);
  }

  /** A string with no occurrence of some character of `t` cannot contain `t`. */
  lemma {:induction false} MissingCharNotContained(s: string, t: string, k: nat)
    requires k < |t|
    requires t[k] !in s
    ensures !Contains(s, t)
  {
    forall i | 0 <= i <= |s|
      ensures !OccursAt(s, t, i)
    {
      if i + |t| <= |s| {
        assert s[i..i + |t|][k] == s[i + k];
        assert s[i + k] in s;
      }
    }
  }
}

=== FILE: wrappers.dfy ===
/**
 * Optional values, the model's stand-in for JavaScript's `undefined`, `null`
 * and `NaN`; and results, for an operation that either answers or throws.
 */
module Wrappers {

  datatype Option<+T> = None | Some(value: T) {

    /** The value, or `default` when absent: JavaScript's `value ?? default`. */
    function GetOr(default: T): T {
      match this
      case Some(v) => v
      case None => default
    }
  }

  datatype Result<+T, +E> = Ok(value: T) | Err(error: E)
}
